=== FILE: README.md ===
# Caltech-101 dataset indexing and training bookkeeping, in Dafny

This project models the deterministic core of `code/main.py`, a script that
trains a CNN on Caltech-101. The model covers these parts:

- **Class scan (`Caltech._find_classes`).** List the directories under
  `<root>/101_ObjectCategories/` and remove the `BACKGROUND_Google` entry.
  Sort the rest with Python's string order and number them `0..n-1`.
  The inverse table `idx_to_class` is built from the result.
- **Sample index (`make_dataset`).**
  - Exactly one of `extensions` and `is_valid_file` must be given.
  - Read the split's manifest `<root>/<split>.txt` and split it into lines.
  - Resolve each line against the categories directory.
  - Keep a line when its lower-cased path ends in an image extension and its class (the line's head) is not the background category.
  - Pair each kept path with its class index. A class with no index is a `KeyError`.
- **The `Caltech` dataset.** The constructor chains the two steps above and rejects an empty index. It keeps `targets` and provides `__len__` and the label half of `__getitem__`, including Python's negative indexing.
- **Training bookkeeping.**
  - Validate `FREEZE` against its three accepted values.
  - Track the best validation accuracy, epoch and network. The comparison is `>=`, so a later epoch wins a tie.

Modules:

| file | module | contents |
|---|---|---|
| `results.dfy` | `Results` | the Python exceptions raised along the modelled paths; `Result`, `Option` |
| `pystr.dfy` | `PyStr` | `str.lower` (ASCII), `endswith`, `posixpath.join` / `split`, `",".join` and its inverse `split(",")`, Python string order, `str.splitlines` |
| `classindex.dfy` | `ClassIndex` | the abstract file system, `_find_classes`, `idx_to_class` |
| `manifest.dfy` | `Manifest` | `make_dataset` and the properties of its index |
| `dataset.dfy` | `Dataset` | the `Caltech` constructor, `__len__`, `__getitem__` |
| `training.dfy` | `Training` | FREEZE selection and best-epoch tracking |

The file system is a value. Each directory path maps to its `os.scandir` entries, and each file path maps to its text. A path missing from these maps raises `FileNotFoundError`. Exceptions are values of `Results.Error`, carried by `Result`.

## Model

| member | source | states |
|---|---|---|
| ClassIndex.ClassesOf | code/main.py:176-182 | succeeds exactly when the scan lists `BACKGROUND_Google`, otherwise a ValueError; the classes are sorted in Python string order and are the scanned names minus one background entry (as a multiset); `class_to_idx` has exactly the classes as keys and maps each to its own position |
| ClassIndex.CategoriesRoot | code/main.py:175 | the scanned directory `os.path.join(dir, '101_ObjectCategories/')`, which is also the root that manifest lines are resolved against at line 135; no contract of its own, see JoinEnds |
| ClassIndex.FindClasses | code/main.py:174-182 | a missing categories directory is FileNotFoundError on `<dir>/101_ObjectCategories/`; the scan succeeds exactly when that directory holds a `BACKGROUND_Google` directory, and otherwise fails with a ValueError; the classes come out sorted, each is the name of a directory (not a file) in the scan, and as a multiset they are the scanned directory names minus one `BACKGROUND_Google`; `class_to_idx` has exactly the classes as keys and maps each to its own position |
| ClassIndex.FindClassesComplete | code/main.py:176-178 | every directory of the scan other than `BACKGROUND_Google` becomes a class |
| ClassIndex.DirNames | code/main.py:176 | a name is listed exactly when some entry of the scan is a directory with that name, and there are no more names than entries |
| ClassIndex.DirNamesDistinct | code/main.py:176 | a scan that never lists a name twice, as `os.scandir` guarantees, yields directory names without repeats |
| ClassIndex.SortStrings | code/main.py:178 | `classes.sort()` yields a sorted permutation of its input |
| ClassIndex.SortedUnique | code/main.py:178 | two sorted permutations of the same strings are equal, so the sorted class list is uniquely determined |
| ClassIndex.RemoveFirst | code/main.py:177 | `list.remove` takes away exactly one occurrence |
| ClassIndex.IndexMap | code/main.py:180 | the dict comprehension has exactly the list's elements as keys, each mapped to a position holding it; with repeats the last position wins |
| ClassIndex.IndexMapDense | code/main.py:180 | for a list without repeats, `class_to_idx[classes[i]] == i` and the values are exactly `0..len-1` |
| ClassIndex.FindClassesExcludesBackground | code/main.py:176-178 | with distinct directory names, `BACKGROUND_Google` is not among the classes and no class repeats |
| ClassIndex.FindClassesDense | code/main.py:176-180 | with distinct directory names, the class indices are dense over `0..n-1` and `class_to_idx[classes[i]] == i` |
| ClassIndex.FindClassesInjective | code/main.py:180 | no two classes share an index |
| ClassIndex.ClassesOfOrderIndependent | code/main.py:176-182 | the order `os.scandir` reports directories in does not affect the classes or indices |
| ClassIndex.InvertOver | code/main.py:245 | every entry of the inverse dict maps an index back to a class with that index, and every class's index is a key |
| ClassIndex.IdxToClassRoundTrip | code/main.py:245 | for an injective table, `idx_to_class[class_to_idx[c]] == c` and `class_to_idx[idx_to_class[i]] == i` |
| ClassIndex.IdxToClass | code/main.py:245 | every entry of `idx_to_class` maps an index to a class carrying that index, and every class's index is a key (see also IdxToClassRoundTrip) |
| ClassIndex.FindClassesRoundTrip | code/main.py:245 | both round trips hold for the table `_find_classes` returns: `idx_to_class[class_to_idx[c]] == c` and `class_to_idx[idx_to_class[i]] == i`; with distinct directory names `idx_to_class[i] == classes[i]` |
| ClassIndex.CatDogScenario | code/main.py:176-182 | folders `dog`, `BACKGROUND_Google`, `cat` give classes `[cat, dog]` and indices `{cat: 0, dog: 1}` |
| PyStr.Lower | code/main.py:129 | `str.lower()` on ASCII letters; no contract of its own, its facts are the lemmas LowerFolds, LowerIdempotent and LowerAppend |
| PyStr.EndsWithAny | code/main.py:129 | `endswith` with a tuple: some suffix of the tuple ends the string; no contract of its own, see EndsWithAnyOfTail |
| PyStr.LowerFolds | code/main.py:129 | `lower()` keeps the length, turns each ASCII capital into its own lower-case letter (`'J'` into `'j'`), leaves no capital and changes no other character |
| PyStr.LowerIdempotent | code/main.py:129 | lowering an already lowered path changes nothing |
| PyStr.LowerAppend | code/main.py:129 | lowering a path lowers each of its parts separately |
| PyStr.EndsWithAnyOfTail | code/main.py:129 | `endswith` with suffixes no longer than the last part of a path depends on that part only |
| PyStr.Join | code/main.py:131-141 | `os.path.join` of two parts; no contract of its own, its facts are the lemmas JoinEnds, JoinSplitTail and SplitClassPath |
| PyStr.JoinEnds | code/main.py:131-141 | `os.path.join(a, b)` always ends with `b`, and starts with `a` unless `b` is absolute |
| PyStr.JoinSplitTail | code/main.py:135-141 | the last component of `os.path.join(a, b)` is the last component of `b` |
| PyStr.AfterLastSep | code/main.py:138 | the split point of `os.path.split` lies just after the last '/' and no '/' follows it |
| PyStr.RStripSlashes | code/main.py:138 | `rstrip('/')` keeps the longest prefix that does not end in '/', and removes only separators |
| PyStr.SplitTail | code/main.py:138 | the tail of `os.path.split` is the longest suffix of the path without a '/' |
| PyStr.SplitHead | code/main.py:138-140 | the head of `os.path.split`; no contract of its own, its facts are the lemmas SplitPieces and SplitClassPath |
| PyStr.SplitPieces | code/main.py:138-140 | a path is its head, a run of separators and its tail; the head keeps a trailing '/' only when it consists of separators alone |
| PyStr.SplitClassPath | code/main.py:138-141 | joining a class directory and a file name and splitting the result gives back the class and the file name |
| PyStr.IsLineBreak | code/main.py:133 | the ten line boundaries `str.splitlines` recognises: `\n`, `\r`, `\x0b`, `\x0c`, `\x1c`, `\x1d`, `\x1e`, `\x85`, `\u2028`, `\u2029`; no contract of its own, used by FirstBreak, SplitLines and SplitLinesWritten |
| PyStr.FirstBreak | code/main.py:133 | the first line boundary is a boundary and nothing before it is |
| PyStr.SplitLines | code/main.py:133 | no line that `splitlines` returns contains a line boundary, and only the empty text gives no lines |
| PyStr.SplitLinesStep | code/main.py:133 | a line followed by a line ending ('\r\n' counting as one) comes out as that line, followed by the lines of the rest |
| PyStr.SplitLinesWritten | code/main.py:133 | a manifest written with any one line ending, with or without a final unterminated line, reads back as exactly its lines |
| PyStr.CommaJoin | code/main.py:166 | `",".join(parts)`; no contract of its own, its inverse is SplitCommaJoin |
| PyStr.SplitCommaJoin | code/main.py:166 | `",".join` of comma-free extensions splits back into those extensions |
| PyStr.LexLe | code/main.py:178 | `<=` on Python strings, the order `classes.sort()` uses; no contract of its own, see LexLeTotal, LexLeAntisymmetric, LexLeTransitive and SortedUnique |
| PyStr.LexLeTotal | code/main.py:178 | Python string order is total |
| PyStr.LexLeAntisymmetric | code/main.py:178 | Python string order is antisymmetric |
| PyStr.LexLeTransitive | code/main.py:178 | Python string order is transitive |
| Manifest.KeptIndicesExact | code/main.py:137-142 | the positions the filter keeps are exactly the surviving lines, in strictly increasing order, none missing |
| Manifest.CollectSamples | code/main.py:137-146 | the loop yields, in manifest order, one `(path, class_to_idx[class])` per line that passes the filter; a passing line with an unknown class stops it with a KeyError for that class, and all earlier passing lines had known classes |
| Manifest.MakeDataset | code/main.py:122-146 | both or neither of `extensions` / `is_valid_file` is a ValueError with the source's message; a missing `<dir>/<split>.txt` is FileNotFoundError; otherwise the index follows the lines of the manifest as described for the loop, filtered by the extension suffix test or the caller's predicate |
| Manifest.ExpectedFollowsKeptIndices | code/main.py:137-144 | the samples appended while scanning a prefix are the kept lines of that prefix, in order |
| Manifest.StopAtUnknownClass | code/main.py:142-143 | the first kept line whose class is not in `class_to_idx` ends the scan with its KeyError |
| Manifest.CollectSucceedsIffClassesKnown | code/main.py:142-143 | the index is built exactly when every kept line's class has an index; an unknown class is never skipped silently |
| Manifest.SamplesComeFromKeptLines | code/main.py:137-146 | there are never more samples than manifest lines, and every sample comes from some line: path resolved against the categories root, accepted by the file check, class not the background, label the class's index |
| Manifest.KeptLineBecomesSample | code/main.py:137-146 | every kept line yields a sample with its resolved path and its class's index |
| Manifest.KeptLinesBecomeSamples | code/main.py:137-146 | two kept lines yield samples in the order of the lines |
| Manifest.ManifestPath | code/main.py:131 | the manifest file `os.path.join(dir, split + '.txt')`; no contract of its own, its use is stated by MakeDataset |
| Manifest.LineClass | code/main.py:138-140 | `os.path.split(fname)[0]`; no contract of its own, see ClassLineKept |
| Manifest.Kept | code/main.py:141-142 | a line survives when its resolved path passes the file check and its class is not `BACKGROUND_Google`; no contract of its own, see ClassLineKept, UpperCaseJpegKept, TextFileDropped and KeptIndicesExact |
| Manifest.CheckOf | code/main.py:125-129 | with `extensions` given, a path is accepted exactly when its lower-cased form ends in one of them; otherwise exactly when the caller's `is_valid_file` accepts it |
| Manifest.ExtensionTestSeesLine | code/main.py:129-142 | the suffix test on the resolved path of a relative manifest line decides on the line alone |
| Manifest.ClassLineKept | code/main.py:138-142 | a line `<class>/<file>` has that class, and is kept exactly when the class is not `BACKGROUND_Google` and its resolved path passes the file check |
| Manifest.UpperCaseJpegKept | code/main.py:127-142 | with `IMG_EXTENSIONS`, a `<class>/<stem>.JPG` line of a category is kept despite the capitals |
| Manifest.TextFileDropped | code/main.py:127-142 | with `IMG_EXTENSIONS`, a `<class>/<stem>.txt` line is dropped |
| Manifest.ExtensionSamplesHaveImageSuffix | code/main.py:127-142 | with `IMG_EXTENSIONS`, every sample's lower-cased path ends in an image extension |
| Dataset.TargetsOf | code/main.py:172 | `targets` has one entry per sample, equal to that sample's label |
| Dataset.FinishAsWritten | code/main.py:164-172 | as written: an empty index raises NameError on `extensions`; a non-empty one is kept with its targets |
| Dataset.EmptyIndexMessage | code/main.py:165-166 | the intended RuntimeError text: "Found 0 files in subfolders of: ", the root, a newline, "Supported extensions are: " and the comma-joined `IMG_EXTENSIONS`; no contract of its own, see SplitCommaJoin |
| Dataset.Finish | code/main.py:164-172 | as intended: an empty index is a RuntimeError naming the root and the supported extensions; otherwise the dataset keeps classes, table and samples and satisfies the object invariant |
| Dataset.EmptyIndexRaisesNameError | code/main.py:164-166 | the empty-index case gives NameError as written and RuntimeError as intended |
| Dataset.FinishAgreesOnNonEmpty | code/main.py:164-172 | away from the empty index, the two versions agree |
| Dataset.SamplesLabelledByDirectory | code/main.py:140-143 | with the table `_find_classes` builds, each label is in range and `classes[label]` is the class directory of the manifest line the sample came from |
| Dataset.NewCaltech | code/main.py:151-172 | the constructor propagates the class-scan and manifest errors; on success the classes are those `_find_classes` returns, the index is what `make_dataset` promises, non-empty and no longer than the manifest, `targets` mirrors the labels and each label names its image's directory; it succeeds exactly when every kept class is known and some line is kept, and otherwise reports the empty index as a RuntimeError (as intended, through `Finish`; as written the empty index is the NameError of `FinishAsWritten`); with an unknown kept class the error is the KeyError of the first such line |
| Dataset.Len | code/main.py:200-204 | `__len__` is the number of samples, which is also the number of targets |
| Dataset.Position | code/main.py:192 | a valid Python index, negative or not, reads a position inside the list congruent to it |
| Dataset.GetItemAsWritten | code/main.py:184-198 | as written: out of range is IndexError; without a transform `image` is unbound and the call fails with UnboundLocalError |
| Dataset.GetItem | code/main.py:184-198 | as intended: an index succeeds exactly when `-len <= index < len`, otherwise IndexError; the item is the sample at that position, labelled with `targets[p]`, in range of the classes |
| Dataset.GetItemWithoutTransformFails | code/main.py:195-198 | a valid index, negative or not, without a transform fails as written and succeeds as intended |
| Dataset.GetItemAgreesWithTransform | code/main.py:192-198 | with a transform, the as-written and intended versions return the same item |
| Dataset.GetItemNegativeIndex | code/main.py:192 | `ds[i - len]` is `ds[i]` |
| Dataset.GetItemLabel | code/main.py:192-198 | item `i`'s label equals `samples[i]`'s label and `targets[i]`, and names the class directory its image was listed under |
| Training.ParseFreeze | code/main.py:308-315 | FREEZE is accepted exactly when it is `no_freezing`, `conv_layers` or `fc_layers`; anything else is a ValueError with the source's message; an accepted value selects the group of that name |
| Training.FreezeMessage | code/main.py:315 | the ValueError text for an unknown FREEZE, naming the given value and the three accepted ones; no contract of its own, its use is stated by ParseFreeze |
| Training.ParseFreezeName | code/main.py:308-313 | each parameter group is selected by its own name |
| Training.ParseFreezeInjective | code/main.py:308-313 | different accepted settings select different groups |
| Training.Update | code/main.py:456-459 | the new best accuracy is the larger of the old best and the epoch's accuracy; whenever it equals the epoch's accuracy, a tie included, the epoch and its network are recorded; an epoch strictly below the best changes nothing |
| Training.TrackBest | code/main.py:349-459 | after the epochs, the best accuracy is at least 0.0 and at least every validation accuracy, and it is 0.0 or attained; once a network is recorded, it and the accuracy are those of `best_epoch` and every later epoch is strictly worse; no network is recorded exactly when every accuracy is below 0.0 |
| Training.TrackBestIsMax | code/main.py:456-459 | `best_val_acc` equals max(0.0, all validation accuracies), an independently defined maximum |
| Training.TrackBestMonotone | code/main.py:456-459 | the best accuracy never decreases as epochs go by |
| Training.BestEpochIsLastMaximum | code/main.py:456-459 | when some epoch attains the maximum, `best_epoch` is the last epoch attaining it and `best_net` is that epoch's network |
| Training.TieGoesToLaterEpoch | code/main.py:456 | with accuracies 0.5, 0.75, 0.75 the best epoch is the third, because the comparison is `>=` |

## Left out

- Image loading (`pil_loader`), transforms and `target_transform` are left out. An item carries the path the loader would open and whether a transform was applied. A missing image file at `__getitem__` time is therefore not modelled.
- `VisionDataset.__init__` is not part of this model. It expands `~` in `root`, and the model treats `root` as given.
- `str.lower` folds only ASCII letters. Python's full Unicode case mapping is not modelled.
- The manifest is read as already-decoded text. Text-mode decoding and newline translation by `open(..., 'r')` are not modelled.
- `make_dataset`'s `transform` argument is not modelled, because it is never used.
- `os.scandir` never lists a name twice. The model states this as `ClassIndex.UniqueNames`, and the lemmas that need it require distinct directory names.
- Each network is an opaque value. Model construction, `resnet50`/`alexnet` and the replaced `fc` layer are left out, and so are SGD, `StepLR`, the loss and the forward/backward passes.
- The arithmetic behind each accuracy is not modelled. The validation loop adds each batch's correct count twice (lines 436 and 443), and the training accuracy is computed from the last batch only. `TrackBest` takes the accuracies as given reals.
- The train/validation split (`StratifiedShuffleSplit`, `Subset`) and the `DataLoader`s are left out, because they are library code with randomness.
- Plotting, printing, timing, the git clone and `beep()` are left out, because they are I/O.
- Which attribute FREEZE's groups read (`net.classifier`, `net.features`) depends on the network class. ParseFreeze selects the group by name only.
- Training.TrackBest: `best_net = 0` before any update is modelled as `None`. A network is a value, where the source takes a `deepcopy` of mutable state.

## Findings

| source | as written | input that shows it | evidently intended | confidence | as-written member | corrected member |
|---|---|---|---|---|---|---|
| code/main.py:164-166 | the empty-index error message joins `extensions`, which is not bound inside `Caltech.__init__` | a manifest with no line that passes the filter | raise RuntimeError naming the root and the supported extensions (`IMG_EXTENSIONS`) | high, not executed | Dataset.FinishAsWritten, Dataset.EmptyIndexRaisesNameError | Dataset.Finish, Dataset.NewCaltech |
| code/main.py:195-198 | `image` is assigned only when a transform is set, and `return image, label` follows unconditionally | `Caltech(root, transform=None)[0]` | return the untransformed sample when there is no transform | high, not executed | Dataset.GetItemAsWritten, Dataset.GetItemWithoutTransformFails | Dataset.GetItem |

=== FILE: classindex.dfy ===
/**
 The label index of the Caltech dataset adapter (`Caltech._find_classes` in
 code/main.py): the category directories, minus the background category,
 sorted and numbered 0..n-1; and the inverse table `idx_to_class` the script
 builds from it.
 */
module ClassIndex {
  import opened Results
  import opened PyStr

  /** The category excluded from the label space. */
  const BACKGROUND: string := "BACKGROUND_Google"

  /** Sub-directory of the dataset root that holds one directory per category. */
  const CATEGORIES_DIR: string := "101_ObjectCategories/"

  /** One entry of `os.scandir`: its name and whether it is a directory. */
  datatype DirEntry = DirEntry(name: string, isDir: bool)

  /** The file system as the script sees it: the entries of every listable
      directory and the text of every readable file, both keyed by the path
      string the script builds. */
  datatype FileSystem = FileSystem(listings: map<string, seq<DirEntry>>, files: map<string, string>)

  /** The pair `(classes, class_to_idx)` that `_find_classes` returns. */
  datatype Classes = Classes(classes: seq<string>, classToIdx: map<string, nat>)

  predicate Distinct(s: seq<string>) {
    forall i, j :: 0 <= i < j < |s| ==> s[i] != s[j]
  }

  predicate Sorted(s: seq<string>) {
    forall i, j :: 0 <= i < j < |s| ==> LexLe(s[i], s[j])
  }

  // ---------------------------------------------------------------------------
  // Directory names and list.remove
  // ---------------------------------------------------------------------------

  /** `[d.name for d in entries if d.is_dir()]`. */
  function DirNames(entries: seq<DirEntry>): (names: seq<string>)
    ensures |names| <= |entries|
    ensures forall n :: n in names <==> exists e :: e in entries && e.isDir && e.name == n
  {
    if |entries| == 0 then []
    else (if entries[0].isDir then [entries[0].name] else []) + DirNames(entries[1..])
  }

  /** A directory listing as `os.scandir` produces it: no name appears twice. */
  predicate UniqueNames(entries: seq<DirEntry>) {
    forall i, j :: 0 <= i < j < |entries| ==> entries[i].name != entries[j].name
  }

  /** A listing without repeated names yields directory names without repeats. */
  lemma {:induction false} DirNamesDistinct(entries: seq<DirEntry>)
    requires UniqueNames(entries)
    ensures Distinct(DirNames(entries))
  {
    if |entries| > 0 {
      var rest := entries[1..];
      assert UniqueNames(rest) by {
        forall i, j | 0 <= i < j < |rest|
          ensures rest[i].name != rest[j].name
        {
          assert rest[i] == entries[i + 1] && rest[j] == entries[j + 1];
        }
      }
      DirNamesDistinct(rest);
      if entries[0].isDir {
        var names := DirNames(entries);
        assert names == [entries[0].name] + DirNames(rest);
        forall j | 0 < j < |names|
          ensures names[0] != names[j]
        {
          assert names[j] in DirNames(rest);
          var e :| e in rest && e.isDir && e.name == names[j];
          var k :| 0 <= k < |rest| && rest[k] == e;
          assert entries[k + 1] == e;
        }
      }
    }
  }

  function IndexOf(s: seq<string>, x: string): (i: nat)
    requires x in s
    ensures i < |s| && s[i] == x && x !in s[..i]
  {
    if s[0] == x then 0
    else
      var i := 1 + IndexOf(s[1..], x);
      assert s[..i] == [s[0]] + s[1..][..i - 1];
      i
  }

  /** `s.remove(x)`: drops the FIRST occurrence of `x` only. */
  function RemoveFirst(s: seq<string>, x: string): (r: seq<string>)
    requires x in s
    ensures multiset(r) == multiset(s) - multiset{x}
    ensures |r| == |s| - 1
  {
    var i := IndexOf(s, x);
    assert s == s[..i] + [x] + s[i + 1..];
    s[..i] + s[i + 1..]
  }

  // ---------------------------------------------------------------------------
  // list.sort
  // ---------------------------------------------------------------------------

  lemma SortedHeadBoundsAll(x: string, s: seq<string>)
    requires Sorted(s) && |s| > 0 && LexLe(x, s[0])
    ensures forall j :: 0 <= j < |s| ==> LexLe(x, s[j])
  {
    forall j | 0 < j < |s| {
      LexLeTransitive(x, s[0], s[j]);
    }
  }

  lemma LowerBoundSurvivesInsert(h: string, x: string, s: seq<string>, t: seq<string>)
    requires forall j :: 0 <= j < |s| ==> LexLe(h, s[j])
    requires LexLe(h, x)
    requires multiset(t) == multiset(s) + multiset{x}
    ensures forall k :: 0 <= k < |t| ==> LexLe(h, t[k])
  {
    forall k | 0 <= k < |t|
      ensures LexLe(h, t[k])
    {
      assert t[k] in multiset(t);
      if t[k] != x {
        assert t[k] in multiset(s);
        var j :| 0 <= j < |s| && s[j] == t[k];
      }
    }
  }

  function Insert(x: string, s: seq<string>): (r: seq<string>)
    requires Sorted(s)
    ensures Sorted(r)
    ensures multiset(r) == multiset(s) + multiset{x}
    decreases |s|
  {
    if |s| == 0 then [x]
    else if LexLe(x, s[0]) then
      SortedHeadBoundsAll(x, s);
      assert s == [s[0]] + s[1..];
      [x] + s
    else
      LexLeTotal(x, s[0]);
      var t := Insert(x, s[1..]);
      LowerBoundSurvivesInsert(s[0], x, s[1..], t);
      assert s == [s[0]] + s[1..];
      [s[0]] + t
  }

  /** `classes.sort()`: an ascending permutation of its input. */
  function SortStrings(s: seq<string>): (r: seq<string>)
    ensures Sorted(r)
    ensures multiset(r) == multiset(s)
  {
    if |s| == 0 then []
    else
      assert s == [s[0]] + s[1..];
      Insert(s[0], SortStrings(s[1..]))
  }

  /** There is only one ascending arrangement of a multiset of strings, so the
      sort's result does not depend on the algorithm nor on the input order. */
  lemma {:induction false} SortedUnique(a: seq<string>, b: seq<string>)
    requires Sorted(a) && Sorted(b) && multiset(a) == multiset(b)
    ensures a == b
  {
    if |a| > 0 {
      assert |b| == |multiset(b)| == |multiset(a)| == |a|;
      assert a[0] in multiset(b);
      var j :| 0 <= j < |b| && b[j] == a[0];
      assert b[0] in multiset(a);
      var i :| 0 <= i < |a| && a[i] == b[0];
      LexLeTotal(a[0], a[0]);
      LexLeTotal(b[0], b[0]);
      assert LexLe(b[0], a[0]);
      assert LexLe(a[0], b[0]);
      LexLeAntisymmetric(a[0], b[0]);
      assert a == [a[0]] + a[1..];
      assert b == [b[0]] + b[1..];
      assert multiset(a[1..]) == multiset(a) - multiset{a[0]};
      assert multiset(b[1..]) == multiset(b) - multiset{b[0]};
      SortedUnique(a[1..], b[1..]);
    }
  }

  // ---------------------------------------------------------------------------
  // class_to_idx and idx_to_class
  // ---------------------------------------------------------------------------

  /** `{cs[i]: i for i in range(len(cs))}`: later positions overwrite earlier
      ones, so every key maps to the LAST position that holds it. */
  function IndexMap(cs: seq<string>): (m: map<string, nat>)
    ensures forall c :: c in m <==> c in cs
    ensures forall c :: c in m ==> m[c] < |cs| && cs[m[c]] == c
    ensures forall c, j :: c in m && m[c] < j < |cs| ==> cs[j] != c
    decreases |cs|
  {
    if |cs| == 0 then map[]
    else
      var init := cs[..|cs| - 1];
      assert cs == init + [cs[|cs| - 1]];
      IndexMap(init)[cs[|cs| - 1] := |cs| - 1]
  }

  /** With distinct class names, `class_to_idx` numbers them densely by position. */
  lemma IndexMapDense(cs: seq<string>)
    requires Distinct(cs)
    ensures forall i :: 0 <= i < |cs| ==> IndexMap(cs)[cs[i]] == i
    ensures forall v :: v in IndexMap(cs).Values <==> 0 <= v < |cs|
  {
    var m := IndexMap(cs);
    forall i | 0 <= i < |cs|
      ensures m[cs[i]] == i
    {
      assert cs[i] in m;
      var k := m[cs[i]];
      assert cs[k] == cs[i];
    }
    forall v: nat | v < |cs|
      ensures v in m.Values
    {
      assert m[cs[v]] == v;
    }
    forall v | v in m.Values
      ensures v < |cs|
    {
      var c :| c in m && m[c] == v;
    }
  }

  /** `{v: k for k, v in m.items()}`, the items visited in `keys` order (a dict
      comprehension's insertion order); a later key overwrites an earlier one. */
  function InvertOver(keys: seq<string>, m: map<string, nat>): (inv: map<nat, string>)
    requires forall k :: k in keys ==> k in m
    ensures forall v :: v in inv ==> inv[v] in keys && m[inv[v]] == v
    ensures forall k :: k in keys ==> m[k] in inv
    decreases |keys|
  {
    if |keys| == 0 then map[]
    else
      var k := keys[|keys| - 1];
      InvertOver(keys[..|keys| - 1], m)[m[k] := k]
  }

  // ---------------------------------------------------------------------------
  // _find_classes
  // ---------------------------------------------------------------------------

  /** The directory `_find_classes` scans. */
  function CategoriesRoot(dir: string): string {
    Join(dir, CATEGORIES_DIR)
  }

  /** Everything after the scan: remove the background entry, sort, number. */
  function ClassesOf(names: seq<string>): (r: Result<Classes>)
    ensures r.Success? <==> BACKGROUND in names
    ensures r.Failure? ==> r.error.ValueError?
    ensures r.Success? ==> Sorted(r.value.classes)
    ensures r.Success? ==> multiset(r.value.classes) == multiset(names) - multiset{BACKGROUND}
    ensures r.Success? ==> forall c :: c in r.value.classToIdx <==> c in r.value.classes
    ensures r.Success? ==> forall c :: c in r.value.classToIdx ==>
                             r.value.classToIdx[c] < |r.value.classes|
                             && r.value.classes[r.value.classToIdx[c]] == c
  {
    if BACKGROUND !in names then Failure(ValueError("list.remove(x): x not in list"))
    else
      var classes := SortStrings(RemoveFirst(names, BACKGROUND));
      Success(Classes(classes, IndexMap(classes)))
  }

  /** Every class is one of the scanned names. */
  lemma ClassesAreNames(names: seq<string>)
    ensures ClassesOf(names).Success? ==> forall c :: c in ClassesOf(names).value.classes ==> c in names
  {
    if ClassesOf(names).Success? {
      var classes := ClassesOf(names).value.classes;
      forall c | c in classes
        ensures c in names
      {
        assert multiset(classes)[c] > 0;
        assert c in multiset(names);
      }
    }
  }

  /** `Caltech._find_classes(dir)`. */
  function FindClasses(fs: FileSystem, dir: string): (r: Result<Classes>)
    ensures CategoriesRoot(dir) !in fs.listings ==> r == Failure(FileNotFoundError(CategoriesRoot(dir)))
    ensures r.Success? <==> CategoriesRoot(dir) in fs.listings
                            && exists e :: e in fs.listings[CategoriesRoot(dir)] && e.isDir && e.name == BACKGROUND
    ensures CategoriesRoot(dir) in fs.listings && r.Failure? ==> r.error.ValueError?
    ensures r.Success? ==> Sorted(r.value.classes)
    ensures r.Success? ==> forall c :: c in r.value.classes ==>
              exists e :: e in fs.listings[CategoriesRoot(dir)] && e.isDir && e.name == c
    ensures r.Success? ==> multiset(r.value.classes)
                             == multiset(DirNames(fs.listings[CategoriesRoot(dir)])) - multiset{BACKGROUND}
    ensures r.Success? ==> forall c :: c in r.value.classToIdx <==> c in r.value.classes
    ensures r.Success? ==> forall c :: c in r.value.classToIdx ==>
                             r.value.classToIdx[c] < |r.value.classes|
                             && r.value.classes[r.value.classToIdx[c]] == c
  {
    var root := CategoriesRoot(dir);
    if root !in fs.listings then Failure(FileNotFoundError(root))
    else
      var names := DirNames(fs.listings[root]);
      ClassesAreNames(names);
      ClassesOf(names)
  }

  /** Every directory of the scan other than the background one becomes a class. */
  lemma {:induction false} FindClassesComplete(fs: FileSystem, dir: string, e: DirEntry)
    requires FindClasses(fs, dir).Success?
    requires e in fs.listings[CategoriesRoot(dir)] && e.isDir && e.name != BACKGROUND
    ensures e.name in FindClasses(fs, dir).value.classes
  {
    var names := DirNames(fs.listings[CategoriesRoot(dir)]);
    var classes := FindClasses(fs, dir).value.classes;
    assert e.name in names;
    assert multiset(names)[e.name] > 0;
    assert multiset(classes)[e.name] == multiset(names)[e.name];
  }

  /** `idx_to_class`, built from the dict `_find_classes` returned. */
  function IdxToClass(c: Classes): (inv: map<nat, string>)
    requires forall k :: k in c.classes ==> k in c.classToIdx
    ensures forall v :: v in inv ==> inv[v] in c.classes && c.classToIdx[inv[v]] == v
    ensures forall k :: k in c.classes ==> c.classToIdx[k] in inv
  {
    InvertOver(c.classes, c.classToIdx)
  }

  // ---------------------------------------------------------------------------
  // Properties
  // ---------------------------------------------------------------------------

  /** A sequence has no repeated element exactly when no element occurs twice in its multiset. */
  lemma {:induction false} DistinctIffSingleCounts(s: seq<string>)
    ensures Distinct(s) <==> forall x :: multiset(s)[x] <= 1
  {
    if |s| > 0 {
      var a, t := s[0], s[1..];
      assert s == [a] + t;
      DistinctIffSingleCounts(t);
      if Distinct(s) {
        assert Distinct(t) by {
          forall i, j | 0 <= i < j < |t| ensures t[i] != t[j] {
            assert t[i] == s[i + 1] && t[j] == s[j + 1];
          }
        }
        assert a !in t;
        forall x ensures multiset(s)[x] <= 1 {
          assert multiset(s)[x] == multiset{a}[x] + multiset(t)[x];
        }
      }
      if forall x :: multiset(s)[x] <= 1 {
        forall x ensures multiset(t)[x] <= 1 {
          assert multiset(s)[x] == multiset{a}[x] + multiset(t)[x];
        }
        assert multiset(s)[a] == 1 + multiset(t)[a];
        forall i, j | 0 <= i < j < |s| ensures s[i] != s[j] {
          if i == 0 {
            assert s[j] == t[j - 1];
            assert s[j] in multiset(t);
          } else {
            assert s[i] == t[i - 1] && s[j] == t[j - 1];
          }
        }
      }
    }
  }

  /** With distinct directory names the class list never contains the background
      category and itself has no duplicates. */
  lemma FindClassesExcludesBackground(fs: FileSystem, dir: string)
    requires FindClasses(fs, dir).Success?
    requires Distinct(DirNames(fs.listings[CategoriesRoot(dir)]))
    ensures BACKGROUND !in FindClasses(fs, dir).value.classes
    ensures Distinct(FindClasses(fs, dir).value.classes)
  {
    var names := DirNames(fs.listings[CategoriesRoot(dir)]);
    var classes := FindClasses(fs, dir).value.classes;
    DistinctIffSingleCounts(names);
    assert multiset(classes)[BACKGROUND] == 0 by {
      assert BACKGROUND in multiset(names);
      assert multiset(names)[BACKGROUND] == 1;
    }
    forall x ensures multiset(classes)[x] <= 1 {
      assert multiset(classes)[x] <= multiset(names)[x];
    }
    DistinctIffSingleCounts(classes);
  }

  /** With distinct directory names, `class_to_idx[classes[i]] == i` and its values
      are exactly 0..len(classes)-1. */
  lemma FindClassesDense(fs: FileSystem, dir: string)
    requires FindClasses(fs, dir).Success?
    requires Distinct(DirNames(fs.listings[CategoriesRoot(dir)]))
    ensures var c := FindClasses(fs, dir).value;
            && (forall i :: 0 <= i < |c.classes| ==> c.classToIdx[c.classes[i]] == i)
            && (forall v :: v in c.classToIdx.Values <==> 0 <= v < |c.classes|)
  {
    FindClassesExcludesBackground(fs, dir);
    IndexMapDense(FindClasses(fs, dir).value.classes);
  }

  /** `class_to_idx` never gives two classes the same index. */
  lemma FindClassesInjective(fs: FileSystem, dir: string)
    requires FindClasses(fs, dir).Success?
    ensures var m := FindClasses(fs, dir).value.classToIdx;
            forall a, b :: a in m && b in m && a != b ==> m[a] != m[b]
  {
  }

  /** The result of `_find_classes` depends only on which directories exist,
      not on the order `os.scandir` reports them in. */
  lemma ClassesOfOrderIndependent(n1: seq<string>, n2: seq<string>)
    requires multiset(n1) == multiset(n2)
    ensures ClassesOf(n1) == ClassesOf(n2)
  {
    assert BACKGROUND in n1 <==> BACKGROUND in multiset(n2);
    if BACKGROUND in n1 {
      var c1, c2 := ClassesOf(n1).value.classes, ClassesOf(n2).value.classes;
      SortedUnique(c1, c2);
    }
  }

  /** `idx_to_class[class_to_idx[c]] == c` for every class, and conversely
      `class_to_idx[idx_to_class[i]] == i` for every index in the inverse table. */
  lemma IdxToClassRoundTrip(c: Classes)
    requires forall k :: k in c.classes ==> k in c.classToIdx
    requires forall a, b :: a in c.classToIdx && b in c.classToIdx && a != b ==>
               c.classToIdx[a] != c.classToIdx[b]
    ensures forall k :: k in c.classes ==>
              (c.classToIdx[k] in IdxToClass(c) && IdxToClass(c)[c.classToIdx[k]] == k)
    ensures forall i :: i in IdxToClass(c) ==>
              (IdxToClass(c)[i] in c.classToIdx && c.classToIdx[IdxToClass(c)[i]] == i)
  {
  }

  /** The round trip for the table `_find_classes` builds; with distinct directory
      names the inverse table is exactly `i -> classes[i]`. */
  lemma FindClassesRoundTrip(fs: FileSystem, dir: string)
    requires FindClasses(fs, dir).Success?
    ensures var c := FindClasses(fs, dir).value;
            forall k :: k in c.classToIdx ==>
              (c.classToIdx[k] in IdxToClass(c) && IdxToClass(c)[c.classToIdx[k]] == k)
    ensures var c := FindClasses(fs, dir).value;
            forall i :: i in IdxToClass(c) ==> IdxToClass(c)[i] in c.classToIdx && c.classToIdx[IdxToClass(c)[i]] == i
    ensures var c := FindClasses(fs, dir).value;
            Distinct(DirNames(fs.listings[CategoriesRoot(dir)])) ==>
              forall i :: 0 <= i < |c.classes| ==> i in IdxToClass(c) && IdxToClass(c)[i] == c.classes[i]
  {
    var c := FindClasses(fs, dir).value;
    FindClassesInjective(fs, dir);
    IdxToClassRoundTrip(c);
    if Distinct(DirNames(fs.listings[CategoriesRoot(dir)])) {
      FindClassesDense(fs, dir);
      forall i | 0 <= i < |c.classes|
        ensures i in IdxToClass(c) && IdxToClass(c)[i] == c.classes[i]
      {
        assert c.classToIdx[c.classes[i]] == i;
      }
    }
  }

  lemma CatDogSorted()
    ensures SortStrings(RemoveFirst(["dog", BACKGROUND, "cat"], BACKGROUND)) == ["cat", "dog"]
  {
    assert IndexOf(["dog", BACKGROUND, "cat"], BACKGROUND) == 1;
    assert RemoveFirst(["dog", BACKGROUND, "cat"], BACKGROUND) == ["dog", "cat"];
    var sorted := SortStrings(["dog", "cat"]);
    assert LexLe("cat", "dog");
    assert Sorted(["cat", "dog"]);
    assert multiset(sorted) == multiset(["cat", "dog"]);
    SortedUnique(sorted, ["cat", "dog"]);
  }

  lemma CatDogIndex()
    ensures IndexMap(["cat", "dog"]) == map["cat" := 0, "dog" := 1]
  {
    var cls := ["cat", "dog"];
    assert cls[..1] == ["cat"];
    assert IndexMap(["cat"]) == map["cat" := 0];
  }

  /** Category folders "dog" and "cat" listed around the background folder give
      `classes == ["cat", "dog"]` and `class_to_idx == {"cat": 0, "dog": 1}`. */
  lemma CatDogScenario()
    ensures ClassesOf(["dog", BACKGROUND, "cat"])
            == Success(Classes(["cat", "dog"], map["cat" := 0, "dog" := 1]))
  {
    CatDogSorted();
    CatDogIndex();
  }
}

=== FILE: dataset.dfy ===
/**
 The `Caltech` dataset class of code/main.py: its constructor (class scan,
 sample index, emptiness check, target list), `__len__`, and the label half
 of `__getitem__`. Image decoding is abstracted away: an item carries the
 path the loader would open and whether the transform was applied.
 */
module Dataset {
  import opened Results
  import opened PyStr
  import opened ClassIndex
  import opened Manifest

  /** The fields the constructor sets. `hasTransform` records whether a
      `transform` was passed; the transform itself is not modelled. */
  datatype Caltech = Caltech(
    root: string,
    split: string,
    classes: seq<string>,
    classToIdx: map<string, nat>,
    samples: seq<Sample>,
    targets: seq<nat>,
    hasTransform: bool)

  /** What `__getitem__` hands back: the image loaded from `path` (transformed
      when `transformed`), and its class index. */
  datatype Item = Item(path: string, target: nat, transformed: bool)

  /** The message the emptiness check was meant to raise. */
  function EmptyIndexMessage(root: string): string {
    "Found 0 files in subfolders of: " + root + "\n"
    + "Supported extensions are: " + CommaJoin(IMG_EXTENSIONS)
  }

  /** The object invariant the constructor establishes: `targets` mirrors the
      sample labels, every label is a valid class position, and `classToIdx`
      numbers exactly the classes, each by its position. */
  ghost predicate Wellformed(ds: Caltech) {
    && |ds.targets| == |ds.samples|
    && (forall i :: 0 <= i < |ds.samples| ==>
          ds.targets[i] == ds.samples[i].target && ds.targets[i] < |ds.classes|)
    && (forall c :: c in ds.classToIdx <==> c in ds.classes)
    && (forall c :: c in ds.classToIdx ==>
          ds.classToIdx[c] < |ds.classes| && ds.classes[ds.classToIdx[c]] == c)
  }

  /** Every label is the index of some class. */
  predicate LabelsInRange(samples: seq<Sample>, n: nat) {
    forall i :: 0 <= i < |samples| ==> samples[i].target < n
  }

  /** `[s[1] for s in samples]`. */
  function TargetsOf(samples: seq<Sample>): (ts: seq<nat>)
    ensures |ts| == |samples|
    ensures forall i :: 0 <= i < |samples| ==> ts[i] == samples[i].target
  {
    if |samples| == 0 then [] else [samples[0].target] + TargetsOf(samples[1..])
  }

  /** The tail of `__init__` AS WRITTEN: on an empty index the error message
      joins `extensions`, a name that is not bound inside `__init__`, so
      Python raises NameError while building the message. */
  function FinishAsWritten(root: string, split: string, c: Classes, samples: seq<Sample>,
                           hasTransform: bool): (r: Result<Caltech>)
    ensures r.Failure? <==> |samples| == 0
    ensures r.Failure? ==> r.error == NameError("extensions")
    ensures r.Success? ==> r.value.samples == samples && r.value.targets == TargetsOf(samples)
  {
    if |samples| == 0 then Failure(NameError("extensions"))
    else Success(Caltech(root, split, c.classes, c.classToIdx, samples, TargetsOf(samples), hasTransform))
  }

  /** The tail of `__init__` as intended: an empty index is the RuntimeError
      naming the root and the supported extensions; otherwise the dataset
      keeps the classes and samples and derives `targets`. */
  function Finish(root: string, split: string, c: Classes, samples: seq<Sample>,
                  hasTransform: bool): (r: Result<Caltech>)
    ensures r.Failure? <==> |samples| == 0
    ensures r.Failure? ==> r.error == RuntimeError(EmptyIndexMessage(root))
    ensures r.Success? ==> && r.value.root == root && r.value.split == split
                           && r.value.classes == c.classes && r.value.classToIdx == c.classToIdx
                           && r.value.samples == samples && r.value.hasTransform == hasTransform
    ensures r.Success? && (forall k :: k in c.classToIdx <==> k in c.classes)
            && (forall k :: k in c.classToIdx ==> c.classToIdx[k] < |c.classes| && c.classes[c.classToIdx[k]] == k)
            && LabelsInRange(samples, |c.classes|)
            ==> Wellformed(r.value)
  {
    if |samples| == 0 then Failure(RuntimeError(EmptyIndexMessage(root)))
    else Success(Caltech(root, split, c.classes, c.classToIdx, samples, TargetsOf(samples), hasTransform))
  }

  /** An empty index: the code as written raises NameError where a RuntimeError
      explaining the empty index was meant. */
  lemma EmptyIndexRaisesNameError(root: string, split: string, c: Classes, hasTransform: bool)
    ensures FinishAsWritten(root, split, c, [], hasTransform) == Failure(NameError("extensions"))
    ensures Finish(root, split, c, [], hasTransform).error.RuntimeError?
  {
  }

  /** Apart from the error raised for an empty index, the two versions agree. */
  lemma FinishAgreesOnNonEmpty(root: string, split: string, c: Classes, samples: seq<Sample>,
                               hasTransform: bool)
    requires |samples| > 0
    ensures FinishAsWritten(root, split, c, samples, hasTransform) == Finish(root, split, c, samples, hasTransform)
  {
  }

  /** A sample's label names the class directory of the manifest line it came from. */
  ghost predicate LabelNamesDirectory(catRoot: string, lines: seq<string>, classes: seq<string>, s: Sample) {
    exists j :: 0 <= j < |lines| && s.path == Join(catRoot, lines[j])
                && s.target < |classes| && classes[s.target] == LineClass(lines[j])
  }

  /** With the class table `_find_classes` returns, every sample of the index
      carries the position of its own directory among the sorted classes. */
  lemma SamplesLabelledByDirectory(catRoot: string, c: Classes, lines: seq<string>, samples: seq<Sample>)
    requires forall k :: k in c.classToIdx ==> c.classToIdx[k] < |c.classes| && c.classes[c.classToIdx[k]] == k
    requires CollectSpec(catRoot, c.classToIdx, ByExtension(IMG_EXTENSIONS), lines, Success(samples))
    ensures LabelsInRange(samples, |c.classes|)
    ensures forall i :: 0 <= i < |samples| ==> LabelNamesDirectory(catRoot, lines, c.classes, samples[i])
  {
    SamplesComeFromKeptLines(catRoot, c.classToIdx, ByExtension(IMG_EXTENSIONS), lines, samples);
    forall i | 0 <= i < |samples|
      ensures samples[i].target < |c.classes|
      ensures LabelNamesDirectory(catRoot, lines, c.classes, samples[i])
    {
      assert FromSomeLine(catRoot, c.classToIdx, ByExtension(IMG_EXTENSIONS), lines, samples[i]);
      var j :| 0 <= j < |lines| && FromLine(catRoot, c.classToIdx, ByExtension(IMG_EXTENSIONS), lines, samples[i], j);
      assert LineClass(lines[j]) in c.classToIdx;
    }
  }

  /** `Caltech(root, split, transform)`: scan the classes, build the index with
      the image extensions, reject an empty index, keep the target list. The
      empty index is rejected as intended, through `Finish`, with a RuntimeError. */
  method NewCaltech(fs: FileSystem, root: string, split: string, hasTransform: bool)
    returns (r: Result<Caltech>)
    ensures FindClasses(fs, root).Failure? ==> r == Failure(FindClasses(fs, root).error)
    ensures FindClasses(fs, root).Success? && ManifestPath(root, split) !in fs.files ==>
              r == Failure(FileNotFoundError(ManifestPath(root, split)))
    ensures r.Success? ==>
              var ds := r.value;
              var lines := SplitLines(fs.files[ManifestPath(root, split)]);
              && ManifestPath(root, split) in fs.files
              && FindClasses(fs, root) == Success(Classes(ds.classes, ds.classToIdx))
              && CollectSpec(CategoriesRoot(root), ds.classToIdx, ByExtension(IMG_EXTENSIONS), lines,
                             Success(ds.samples))
              && 0 < |ds.samples| <= |lines|
              && Wellformed(ds)
              && (forall i :: 0 <= i < |ds.samples| ==>
                    LabelNamesDirectory(CategoriesRoot(root), lines, ds.classes, ds.samples[i]))
              && ds.root == root && ds.split == split && ds.hasTransform == hasTransform
    ensures FindClasses(fs, root).Success? && ManifestPath(root, split) in fs.files ==>
              var lines := SplitLines(fs.files[ManifestPath(root, split)]);
              var m := FindClasses(fs, root).value.classToIdx;
              var check := ByExtension(IMG_EXTENSIONS);
              && (r.Success? <==> KeptClassesKnown(CategoriesRoot(root), check, m, lines, |lines|)
                                  && |KeptIndices(CategoriesRoot(root), check, lines, |lines|)| > 0)
              && (r.Failure? && KeptClassesKnown(CategoriesRoot(root), check, m, lines, |lines|) ==>
                    r.error == RuntimeError(EmptyIndexMessage(root)))
              && (!KeptClassesKnown(CategoriesRoot(root), check, m, lines, |lines|) ==>
                    r.Failure? && CollectSpec(CategoriesRoot(root), m, check, lines, Failure(r.error)))
  {
    var cls := FindClasses(fs, root);
    if cls.Failure? {
      return Failure(cls.error);
    }
    var c := cls.value;
    var built := MakeDataset(fs, root, c.classToIdx, Some(IMG_EXTENSIONS), None, split);
    if built.Failure? {
      if ManifestPath(root, split) in fs.files {
        CollectSucceedsIffClassesKnown(CategoriesRoot(root), c.classToIdx, ByExtension(IMG_EXTENSIONS),
                                       SplitLines(fs.files[ManifestPath(root, split)]), built);
      }
      return Failure(built.error);
    }
    var samples := built.value;
    var lines := SplitLines(fs.files[ManifestPath(root, split)]);
    SamplesLabelledByDirectory(CategoriesRoot(root), c, lines, samples);
    SamplesComeFromKeptLines(CategoriesRoot(root), c.classToIdx, ByExtension(IMG_EXTENSIONS), lines, samples);
    r := Finish(root, split, c, samples, hasTransform);
  }

  /** `__len__`. */
  function Len(ds: Caltech): (n: nat)
    ensures Wellformed(ds) ==> n == |ds.targets|
  {
    |ds.samples|
  }

  /** `index` is a valid Python index into a list of length `n`:
      `-n <= index < n`. */
  predicate InRange(n: nat, index: int) {
    0 <= index + n && index < n
  }

  /** The list position Python's `samples[index]` reads: a negative index
      counts from the end. */
  function Position(n: nat, index: int): (p: int)
    ensures InRange(n, index) ==> 0 <= p < n
    ensures InRange(n, index) ==> (p - index) % n == 0
  {
    if index < 0 then index + n else index
  }

  /** `__getitem__` AS WRITTEN: `image` is bound only when a transform is set,
      so without one `return image, label` raises UnboundLocalError. */
  function GetItemAsWritten(ds: Caltech, index: int): (r: Result<Item>)
    ensures r.Success? <==> InRange(Len(ds), index) && ds.hasTransform
    ensures !InRange(Len(ds), index) ==> r == Failure(IndexError)
    ensures InRange(Len(ds), index) && !ds.hasTransform ==> r == Failure(UnboundLocalError("image"))
  {
    if !InRange(Len(ds), index) then Failure(IndexError)
    else if !ds.hasTransform then Failure(UnboundLocalError("image"))
    else
      var s := ds.samples[Position(Len(ds), index)];
      Success(Item(s.path, s.target, true))
  }

  /** `__getitem__` as intended: the sample at `index` (negative counts from
      the end), transformed when a transform is set, with its label. */
  function GetItem(ds: Caltech, index: int): (r: Result<Item>)
    ensures r.Success? <==> InRange(Len(ds), index)
    ensures r.Failure? ==> r.error == IndexError
    ensures r.Success? ==> r.value.transformed == ds.hasTransform
    ensures r.Success? && Wellformed(ds) ==>
              var p := Position(Len(ds), index);
              && r.value.path == ds.samples[p].path
              && r.value.target == ds.targets[p]
              && r.value.target < |ds.classes|
  {
    if !InRange(Len(ds), index) then Failure(IndexError)
    else
      var s := ds.samples[Position(Len(ds), index)];
      Success(Item(s.path, s.target, ds.hasTransform))
  }

  /** Without a transform the code as written cannot return any item, even
      though the index is valid. */
  lemma GetItemWithoutTransformFails(ds: Caltech, index: int)
    requires InRange(Len(ds), index) && !ds.hasTransform
    ensures GetItemAsWritten(ds, index) == Failure(UnboundLocalError("image"))
    ensures GetItem(ds, index).Success?
  {
  }

  /** With a transform set the two versions return the same item. */
  lemma GetItemAgreesWithTransform(ds: Caltech, index: int)
    requires ds.hasTransform
    ensures GetItemAsWritten(ds, index) == GetItem(ds, index)
  {
  }

  /** Indexing from the end reaches the same item as the matching forward index. */
  lemma GetItemNegativeIndex(ds: Caltech, i: int)
    requires 0 <= i < Len(ds)
    ensures GetItem(ds, i - Len(ds)) == GetItem(ds, i)
  {
  }

  /** The label of item `i` of the dataset is the label of its `i`-th sample,
      which is also `targets[i]`, and it names the class directory the image
      was listed under. */
  lemma GetItemLabel(fs: FileSystem, root: string, split: string, ds: Caltech, i: nat)
    requires ManifestPath(root, split) in fs.files
    requires var lines := SplitLines(fs.files[ManifestPath(root, split)]);
             && Wellformed(ds)
             && forall k :: 0 <= k < |ds.samples| ==>
                  LabelNamesDirectory(CategoriesRoot(root), lines, ds.classes, ds.samples[k])
    requires i < Len(ds)
    ensures GetItem(ds, i).Success?
    ensures GetItem(ds, i).value.target == ds.targets[i] == ds.samples[i].target
    ensures LabelNamesDirectory(CategoriesRoot(root), SplitLines(fs.files[ManifestPath(root, split)]),
                                ds.classes, Sample(GetItem(ds, i).value.path, GetItem(ds, i).value.target))
  {
    assert Sample(GetItem(ds, i).value.path, GetItem(ds, i).value.target) == ds.samples[i];
  }
}

=== FILE: manifest.dfy ===
/**
 The sample index (`make_dataset` in code/main.py): read the split's manifest,
 keep the lines whose path has an accepted extension and whose class is not
 the background category, and pair each kept path with its class index.
 */
module Manifest {
  import opened Results
  import opened PyStr
  import opened ClassIndex

  /** The extensions the dataset adapter accepts (`IMG_EXTENSIONS`). */
  const IMG_EXTENSIONS: seq<string> :=
    [".jpg", ".jpeg", ".png", ".ppm", ".bmp", ".pgm", ".tif", ".tiff", ".webp"]

  const XOR_MESSAGE: string :=
    "Both extensions and is_valid_file cannot be None or not None at the same time"

  /** One `(path, class_index)` pair of the index. */
  datatype Sample = Sample(path: string, target: nat)

  /** The file filter `make_dataset` ends up with: the suffix test built from
      `extensions`, or the caller's own `is_valid_file`. */
  datatype FileCheck = ByExtension(extensions: seq<string>) | ByPredicate(accept: string -> bool)

  predicate Accepts(check: FileCheck, path: string) {
    match check
    case ByExtension(exts) => EndsWithAny(Lower(path), exts)
    case ByPredicate(f) => f(path)
  }

  /** The split's manifest file, `<dir>/<split>.txt`. */
  function ManifestPath(dir: string, split: string): string {
    Join(dir, split + ".txt")
  }

  /** The class a manifest line names: the head of `os.path.split(line)`. */
  function LineClass(line: string): string {
    SplitHead(line)
  }

  /** A line survives the filter: its resolved path passes the file check and
      its class is not the background category. */
  predicate Kept(root: string, check: FileCheck, line: string) {
    Accepts(check, Join(root, line)) && LineClass(line) != BACKGROUND
  }

  /** Which lines survive the filter, position by position. */
  function KeepMask(root: string, check: FileCheck, lines: seq<string>): (mask: seq<bool>)
    ensures |mask| == |lines|
    ensures forall i :: 0 <= i < |lines| ==> mask[i] == Kept(root, check, lines[i])
  {
    seq(|lines|, i requires 0 <= i < |lines| => Kept(root, check, lines[i]))
  }

  /** The positions below `n` where `mask` holds, in increasing order. */
  function Positions(mask: seq<bool>, n: nat): (idx: seq<nat>)
    requires n <= |mask|
    ensures |idx| <= n
    ensures forall k :: 0 <= k < |idx| ==> idx[k] < n
  {
    if n == 0 then []
    else Positions(mask, n - 1) + (if mask[n - 1] then [n - 1] else [])
  }

  /** Every listed position holds. */
  lemma {:induction false} PositionsHold(mask: seq<bool>, n: nat)
    requires n <= |mask|
    ensures forall k :: 0 <= k < |Positions(mask, n)| ==> mask[Positions(mask, n)[k]]
  {
    if n > 0 {
      PositionsHold(mask, n - 1);
      var prev, idx := Positions(mask, n - 1), Positions(mask, n);
      forall k | 0 <= k < |idx|
        ensures mask[idx[k]]
      {
        if k < |prev| {
          assert idx[k] == prev[k];
        }
      }
    }
  }

  /** The positions are listed in strictly increasing order. */
  lemma {:induction false} PositionsIncreasing(mask: seq<bool>, n: nat)
    requires n <= |mask|
    ensures forall k, l :: 0 <= k < l < |Positions(mask, n)| ==> Positions(mask, n)[k] < Positions(mask, n)[l]
  {
    if n > 0 {
      PositionsIncreasing(mask, n - 1);
      var prev, idx := Positions(mask, n - 1), Positions(mask, n);
      forall k, l | 0 <= k < l < |idx|
        ensures idx[k] < idx[l]
      {
        assert idx[k] == prev[k];
        if l < |prev| {
          assert idx[l] == prev[l];
        }
      }
    }
  }

  /** No position where the mask holds is missing. */
  lemma {:induction false} PositionsComplete(mask: seq<bool>, n: nat, i: nat)
    requires i < n <= |mask| && mask[i]
    ensures i in Positions(mask, n)
  {
    var prev, idx := Positions(mask, n - 1), Positions(mask, n);
    if i < n - 1 {
      PositionsComplete(mask, n - 1, i);
      var k :| 0 <= k < |prev| && prev[k] == i;
      assert idx[k] == i;
    } else {
      assert idx[|idx| - 1] == i;
    }
  }

  /** The positions, among the first `n` lines, of the lines that survive the
      filter, in increasing order. */
  function KeptIndices(root: string, check: FileCheck, lines: seq<string>, n: nat): (idx: seq<nat>)
    requires n <= |lines|
    ensures |idx| <= n
    ensures forall k :: 0 <= k < |idx| ==> idx[k] < n
  {
    Positions(KeepMask(root, check, lines), n)
  }

  /** `KeptIndices` lists exactly the surviving lines, once each, in manifest order. */
  lemma KeptIndicesExact(root: string, check: FileCheck, lines: seq<string>)
    ensures forall k :: 0 <= k < |KeptIndices(root, check, lines, |lines|)| ==>
              Kept(root, check, lines[KeptIndices(root, check, lines, |lines|)[k]])
    ensures forall k, l :: 0 <= k < l < |KeptIndices(root, check, lines, |lines|)| ==>
              KeptIndices(root, check, lines, |lines|)[k] < KeptIndices(root, check, lines, |lines|)[l]
    ensures forall i :: 0 <= i < |lines| && Kept(root, check, lines[i]) ==>
              i in KeptIndices(root, check, lines, |lines|)
  {
    var mask := KeepMask(root, check, lines);
    PositionsHold(mask, |lines|);
    PositionsIncreasing(mask, |lines|);
    forall i | 0 <= i < |lines| && Kept(root, check, lines[i])
      ensures i in KeptIndices(root, check, lines, |lines|)
    {
      PositionsComplete(mask, |lines|, i);
    }
  }

  /** Every surviving line among the first `n` names a class that has an index. */
  predicate KeptClassesKnown(root: string, check: FileCheck, m: map<string, nat>, lines: seq<string>, n: nat)
    requires n <= |lines|
  {
    forall i :: 0 <= i < n && Kept(root, check, lines[i]) ==> LineClass(lines[i]) in m
  }

  /** The index of class `c`, or 0 for a class without one; only consulted
      where every surviving line's class has an index. */
  function IndexOr0(m: map<string, nat>, c: string): nat {
    if c in m then m[c] else 0
  }

  /** The samples the surviving lines of `lines` give, in order. */
  function Expected(root: string, m: map<string, nat>, check: FileCheck, lines: seq<string>): seq<Sample>
    decreases |lines|
  {
    if |lines| == 0 then []
    else
      var l := lines[|lines| - 1];
      var prev := Expected(root, m, check, lines[..|lines| - 1]);
      if Kept(root, check, l) then prev + [Sample(Join(root, l), IndexOr0(m, LineClass(l)))] else prev
  }

  /** `samples[k]` is the sample of line `idx[k]`: that line resolved against
      `root`, labelled with its class index. */
  predicate Labelled(root: string, m: map<string, nat>, lines: seq<string>, idx: seq<nat>, samples: seq<Sample>) {
    && |samples| == |idx|
    && forall k :: 0 <= k < |idx| ==>
         && idx[k] < |lines|
         && LineClass(lines[idx[k]]) in m
         && samples[k] == Sample(Join(root, lines[idx[k]]), m[LineClass(lines[idx[k]])])
  }

  lemma LabelledSnoc(root: string, m: map<string, nat>, lines: seq<string>, idx: seq<nat>,
                     samples: seq<Sample>, j: nat)
    requires Labelled(root, m, lines, idx, samples)
    requires j < |lines| && LineClass(lines[j]) in m
    ensures Labelled(root, m, lines, idx + [j], samples + [Sample(Join(root, lines[j]), m[LineClass(lines[j])])])
  {
  }

  /** The surviving lines among the first `n`, taken in order, give the samples. */
  lemma {:induction false} ExpectedFollowsKeptIndices(root: string, m: map<string, nat>, check: FileCheck,
                                                      lines: seq<string>, n: nat)
    requires n <= |lines| && KeptClassesKnown(root, check, m, lines, n)
    ensures Labelled(root, m, lines, KeptIndices(root, check, lines, n), Expected(root, m, check, lines[..n]))
  {
    if n > 0 {
      ExpectedFollowsKeptIndices(root, m, check, lines, n - 1);
      ExpectedStep(root, m, check, lines, n - 1);
      var prevIdx, idx := KeptIndices(root, check, lines, n - 1), KeptIndices(root, check, lines, n);
      var prev := Expected(root, m, check, lines[..n - 1]);
      var l := lines[n - 1];
      if Kept(root, check, l) {
        assert idx == prevIdx + [n - 1];
        LabelledSnoc(root, m, lines, prevIdx, prev, n - 1);
      } else {
        assert idx == prevIdx;
      }
    }
  }

  /** What the filtering loop promises. On success the samples are the surviving
      lines, in manifest order, each resolved against `root` and labelled with
      its class index. On failure the error is the KeyError of the first
      surviving line whose class has no index. */
  predicate CollectSpec(root: string, m: map<string, nat>, check: FileCheck, lines: seq<string>,
                        r: Result<seq<Sample>>)
  {
    match r
    case Success(samples) =>
      && KeptClassesKnown(root, check, m, lines, |lines|)
      && Labelled(root, m, lines, KeptIndices(root, check, lines, |lines|), samples)
    case Failure(e) =>
      exists i :: && 0 <= i < |lines|
                  && Kept(root, check, lines[i])
                  && LineClass(lines[i]) !in m
                  && KeptClassesKnown(root, check, m, lines, i)
                  && e == KeyError(LineClass(lines[i]))
  }

  /** The first surviving line with an unknown class ends the loop with its KeyError. */
  lemma StopAtUnknownClass(root: string, m: map<string, nat>, check: FileCheck, lines: seq<string>, i: nat)
    requires i < |lines| && KeptClassesKnown(root, check, m, lines, i)
    requires Kept(root, check, lines[i]) && LineClass(lines[i]) !in m
    ensures CollectSpec(root, m, check, lines, Failure(KeyError(LineClass(lines[i]))))
  {
  }

  /** Scanning one more line appends that line's sample exactly when it survives. */
  lemma ExpectedStep(root: string, m: map<string, nat>, check: FileCheck, lines: seq<string>, i: nat)
    requires i < |lines|
    ensures Expected(root, m, check, lines[..i + 1])
            == Expected(root, m, check, lines[..i])
               + (if Kept(root, check, lines[i])
                  then [Sample(Join(root, lines[i]), IndexOr0(m, LineClass(lines[i])))] else [])
  {
    assert lines[..i + 1][..i] == lines[..i];
  }

  /** One more surviving line with a known class keeps every surviving class known. */
  lemma KnownStep(root: string, m: map<string, nat>, check: FileCheck, lines: seq<string>, i: nat)
    requires i < |lines| && KeptClassesKnown(root, check, m, lines, i)
    requires Kept(root, check, lines[i]) ==> LineClass(lines[i]) in m
    ensures KeptClassesKnown(root, check, m, lines, i + 1)
  {
  }

  /** Once every surviving class is known, the samples of the whole manifest meet the spec. */
  lemma ExpectedMeetsSpec(root: string, m: map<string, nat>, check: FileCheck, lines: seq<string>)
    requires KeptClassesKnown(root, check, m, lines, |lines|)
    ensures CollectSpec(root, m, check, lines, Success(Expected(root, m, check, lines)))
  {
    ExpectedFollowsKeptIndices(root, m, check, lines, |lines|);
    assert lines[..|lines|] == lines;
  }

  /** The loop of `make_dataset` over the manifest lines. */
  method CollectSamples(root: string, m: map<string, nat>, check: FileCheck, lines: seq<string>)
    returns (r: Result<seq<Sample>>)
    ensures CollectSpec(root, m, check, lines, r)
  {
    var images: seq<Sample> := [];
    var i := 0;
    while i < |lines|
      invariant 0 <= i <= |lines|
      invariant KeptClassesKnown(root, check, m, lines, i)
      invariant images == Expected(root, m, check, lines[..i])
    {
      var fname := lines[i];
      ExpectedStep(root, m, check, lines, i);
      if Kept(root, check, fname) {
        var target := LineClass(fname);
        if target !in m {
          StopAtUnknownClass(root, m, check, lines, i);
          return Failure(KeyError(target));
        }
        images := images + [Sample(Join(root, fname), m[target])];
      }
      KnownStep(root, m, check, lines, i);
      i := i + 1;
    }
    assert lines[..i] == lines;
    ExpectedMeetsSpec(root, m, check, lines);
    return Success(images);
  }

  /** The filter `make_dataset` builds from its two optional arguments. */
  function CheckOf(extensions: Option<seq<string>>, isValidFile: Option<string -> bool>): (r: FileCheck)
    requires extensions.None? != isValidFile.None?
    ensures forall path :: Accepts(r, path) <==>
              if extensions.Some? then EndsWithAny(Lower(path), extensions.value) else isValidFile.value(path)
  {
    if extensions.Some? then ByExtension(extensions.value) else ByPredicate(isValidFile.value)
  }

  /** `make_dataset(dir, class_to_idx, extensions, is_valid_file, split)`. Exactly
      one of `extensions` and `is_valid_file` must be given; the manifest
      `<dir>/<split>.txt` must exist; then the loop above runs over its lines. */
  method MakeDataset(fs: FileSystem, dir: string, classToIdx: map<string, nat>,
                     extensions: Option<seq<string>>, isValidFile: Option<string -> bool>, split: string)
    returns (r: Result<seq<Sample>>)
    ensures extensions.None? == isValidFile.None? ==> r == Failure(ValueError(XOR_MESSAGE))
    ensures extensions.None? != isValidFile.None? && ManifestPath(dir, split) !in fs.files ==>
              r == Failure(FileNotFoundError(ManifestPath(dir, split)))
    ensures extensions.None? != isValidFile.None? && ManifestPath(dir, split) in fs.files ==>
              CollectSpec(CategoriesRoot(dir), classToIdx, CheckOf(extensions, isValidFile),
                          SplitLines(fs.files[ManifestPath(dir, split)]), r)
  {
    if extensions.None? == isValidFile.None? {
      return Failure(ValueError(XOR_MESSAGE));
    }
    var check := CheckOf(extensions, isValidFile);
    var inputFile := ManifestPath(dir, split);
    if inputFile !in fs.files {
      return Failure(FileNotFoundError(inputFile));
    }
    var inputImages := SplitLines(fs.files[inputFile]);
    var root := CategoriesRoot(dir);
    r := CollectSamples(root, classToIdx, check, inputImages);
  }

  // ---------------------------------------------------------------------------
  // Properties
  // ---------------------------------------------------------------------------

  /** The index builds exactly when every surviving line names a known class:
      an unknown class is a KeyError, never a silent skip. */
  lemma CollectSucceedsIffClassesKnown(root: string, m: map<string, nat>, check: FileCheck,
                                       lines: seq<string>, r: Result<seq<Sample>>)
    requires CollectSpec(root, m, check, lines, r)
    ensures r.Success? <==> KeptClassesKnown(root, check, m, lines, |lines|)
  {
    if r.Failure? {
      var i :| && 0 <= i < |lines|
               && Kept(root, check, lines[i])
               && LineClass(lines[i]) !in m
               && KeptClassesKnown(root, check, m, lines, i)
               && r.error == KeyError(LineClass(lines[i]));
      assert !KeptClassesKnown(root, check, m, lines, |lines|);
    }
  }

  /** Sample `s` comes from line `i`: its path is that line resolved against
      the image root and passes the file check, the line's class is not the
      background category, and the target is that class's index. */
  predicate FromLine(root: string, m: map<string, nat>, check: FileCheck, lines: seq<string>,
                     s: Sample, i: int)
  {
    && 0 <= i < |lines|
    && s.path == Join(root, lines[i])
    && Accepts(check, s.path)
    && LineClass(lines[i]) != BACKGROUND
    && LineClass(lines[i]) in m
    && s.target == m[LineClass(lines[i])]
  }

  /** Some line of the manifest produced `s`. */
  predicate FromSomeLine(root: string, m: map<string, nat>, check: FileCheck, lines: seq<string>, s: Sample) {
    exists i :: 0 <= i < |lines| && FromLine(root, m, check, lines, s, i)
  }

  /** Every sample comes from a surviving manifest line, and there are never
      more samples than lines. */
  lemma SamplesComeFromKeptLines(root: string, m: map<string, nat>, check: FileCheck,
                                 lines: seq<string>, samples: seq<Sample>)
    requires CollectSpec(root, m, check, lines, Success(samples))
    ensures |samples| <= |lines|
    ensures forall k :: 0 <= k < |samples| ==> FromSomeLine(root, m, check, lines, samples[k])
  {
    var idx := KeptIndices(root, check, lines, |lines|);
    KeptIndicesExact(root, check, lines);
    forall k | 0 <= k < |samples|
      ensures FromSomeLine(root, m, check, lines, samples[k])
    {
      assert FromLine(root, m, check, lines, samples[k], idx[k]);
    }
  }

  /** Every surviving manifest line contributes its sample. */
  lemma KeptLineBecomesSample(root: string, m: map<string, nat>, check: FileCheck,
                              lines: seq<string>, samples: seq<Sample>, i: nat)
    requires CollectSpec(root, m, check, lines, Success(samples))
    requires i < |lines| && Kept(root, check, lines[i])
    ensures exists k :: 0 <= k < |samples| && samples[k] == Sample(Join(root, lines[i]), m[LineClass(lines[i])])
  {
    var idx := KeptIndices(root, check, lines, |lines|);
    KeptIndicesExact(root, check, lines);
    var k :| 0 <= k < |idx| && idx[k] == i;
    assert samples[k] == Sample(Join(root, lines[i]), m[LineClass(lines[i])]);
  }

  /** In a strictly increasing sequence, the smaller value sits at the earlier position. */
  lemma IncreasingPositions(idx: seq<nat>, a: nat, b: nat)
    requires forall k, l :: 0 <= k < l < |idx| ==> idx[k] < idx[l]
    requires a < |idx| && b < |idx| && idx[a] < idx[b]
    ensures a < b
  {
  }

  /** With extensions no longer than the manifest line, the suffix test on the
      resolved path only ever looks at the line itself. */
  lemma ExtensionTestSeesLine(root: string, line: string, exts: seq<string>)
    requires |line| == 0 || line[0] != '/'
    requires forall i :: 0 <= i < |exts| ==> |exts[i]| <= |line|
    ensures Accepts(ByExtension(exts), Join(root, line)) <==> EndsWithAny(Lower(line), exts)
  {
    var p := Join(root, line);
    JoinEnds(root, line);
    var x := p[..|p| - |line|];
    assert p == x + line;
    LowerAppend(x, line);
    LowerFolds(line);
    EndsWithAnyOfTail(Lower(x), Lower(line), exts);
  }

  /** A line `<class>/<file>` is labelled with its class directory, and it survives
      exactly when its path passes the file check, unless the class is the
      background category, whose lines never survive. */
  lemma ClassLineKept(root: string, check: FileCheck, c: string, f: string)
    requires |c| > 0 && c[|c| - 1] != '/'
    requires forall k :: 0 <= k < |f| ==> f[k] != '/'
    ensures LineClass(c + "/" + f) == c
    ensures Kept(root, check, c + "/" + f) <==> c != BACKGROUND && Accepts(check, Join(root, c + "/" + f))
  {
    SplitClassPath(c, f);
  }

  /** No image extension is longer than five characters. */
  lemma ImageExtensionsShort()
    ensures forall i :: 0 <= i < |IMG_EXTENSIONS| ==> |IMG_EXTENSIONS[i]| <= 5
  {
  }

  /** The suffix test lowers the path first, so an upper-case ".JPG" passes. */
  lemma UpperCaseJpegPasses(stem: string)
    ensures EndsWithAny(Lower(stem + ".JPG"), IMG_EXTENSIONS)
  {
    LowerAppend(stem, ".JPG");
    assert |Lower(".JPG")| == 4;
    assert Lower(stem + ".JPG")[|stem|..] == ".jpg";
    assert EndsWith(Lower(stem + ".JPG"), IMG_EXTENSIONS[0]);
  }

  /** No image extension ends in 't', so no ".txt" file passes. */
  lemma TextFileFails(stem: string)
    ensures !EndsWithAny(Lower(stem + ".txt"), IMG_EXTENSIONS)
  {
    LowerAppend(stem, ".txt");
    assert |Lower(".txt")| == 4;
    var low := Lower(stem + ".txt");
    assert low[|low| - 1] == 't';
    forall i | 0 <= i < |IMG_EXTENSIONS|
      ensures !EndsWith(low, IMG_EXTENSIONS[i])
    {
      var e := IMG_EXTENSIONS[i];
      assert e[|e| - 1] != 't';
    }
  }

  /** With the image extensions, a line `<class>/<stem>.JPG` of a category other
      than the background is kept, whatever the case of the extension. */
  lemma UpperCaseJpegKept(root: string, c: string, stem: string)
    requires |c| > 0 && c != BACKGROUND
    requires forall k :: 0 <= k < |c| ==> c[k] != '/'
    requires forall k :: 0 <= k < |stem| ==> stem[k] != '/'
    ensures Kept(root, ByExtension(IMG_EXTENSIONS), c + "/" + (stem + ".JPG"))
  {
    var f := stem + ".JPG";
    assert forall k :: 0 <= k < |f| ==> f[k] != '/' by {
      assert forall k :: |stem| <= k < |f| ==> f[k] == ".JPG"[k - |stem|];
    }
    ClassLineKept(root, ByExtension(IMG_EXTENSIONS), c, f);
    assert c + "/" + f == (c + "/" + stem) + ".JPG";
    ImageExtensionsShort();
    assert (c + "/" + f)[0] == c[0];
    ExtensionTestSeesLine(root, c + "/" + f, IMG_EXTENSIONS);
    UpperCaseJpegPasses(c + "/" + stem);
  }

  /** With the image extensions, a line `<class>/<stem>.txt` is dropped. */
  lemma TextFileDropped(root: string, c: string, stem: string)
    requires |c| > 0
    requires forall k :: 0 <= k < |c| ==> c[k] != '/'
    requires forall k :: 0 <= k < |stem| ==> stem[k] != '/'
    ensures !Kept(root, ByExtension(IMG_EXTENSIONS), c + "/" + (stem + ".txt"))
  {
    var f := stem + ".txt";
    assert forall k :: 0 <= k < |f| ==> f[k] != '/' by {
      assert forall k :: |stem| <= k < |f| ==> f[k] == ".txt"[k - |stem|];
    }
    ClassLineKept(root, ByExtension(IMG_EXTENSIONS), c, f);
    assert c + "/" + f == (c + "/" + stem) + ".txt";
    ImageExtensionsShort();
    assert (c + "/" + f)[0] == c[0];
    ExtensionTestSeesLine(root, c + "/" + f, IMG_EXTENSIONS);
    TextFileFails(c + "/" + stem);
  }

  /** Two surviving lines keep their relative order in the index. */
  lemma KeptLinesBecomeSamples(root: string, m: map<string, nat>, check: FileCheck,
                               lines: seq<string>, samples: seq<Sample>, i: nat, j: nat)
    requires CollectSpec(root, m, check, lines, Success(samples))
    requires i < j < |lines| && Kept(root, check, lines[i]) && Kept(root, check, lines[j])
    ensures exists ki, kj :: 0 <= ki < kj < |samples|
                            && samples[ki] == Sample(Join(root, lines[i]), m[LineClass(lines[i])])
                            && samples[kj] == Sample(Join(root, lines[j]), m[LineClass(lines[j])])
  {
    var idx := KeptIndices(root, check, lines, |lines|);
    KeptIndicesExact(root, check, lines);
    var ki :| 0 <= ki < |idx| && idx[ki] == i;
    var kj :| 0 <= kj < |idx| && idx[kj] == j;
    IncreasingPositions(idx, ki, kj);
    assert 0 <= ki < kj < |samples|;
  }

  /** With the adapter's extension tuple, a sample's lower-cased path ends with
      one of the image extensions. */
  lemma ExtensionSamplesHaveImageSuffix(root: string, m: map<string, nat>, lines: seq<string>,
                                        samples: seq<Sample>)
    requires CollectSpec(root, m, ByExtension(IMG_EXTENSIONS), lines, Success(samples))
    ensures forall k :: 0 <= k < |samples| ==> EndsWithAny(Lower(samples[k].path), IMG_EXTENSIONS)
  {
    SamplesComeFromKeptLines(root, m, ByExtension(IMG_EXTENSIONS), lines, samples);
  }
}

=== FILE: pystr.dfy ===
/**
 The Python string and POSIX path primitives the dataset code leans on:
 `str.lower`, `str.endswith`, `str.splitlines`, the ordering `sorted` uses,
 and `os.path.join` / `os.path.split` as `posixpath` defines them.
 */
module PyStr {

  // ---------------------------------------------------------------------------
  // Case folding and suffixes
  // ---------------------------------------------------------------------------

  /** `str.lower()` on one character; only the ASCII letters are folded. */
  function LowerChar(c: char): char {
    if 'A' <= c <= 'Z' then (c as int + 32) as char else c
  }

  /** `s.lower()`. */
  function Lower(s: string): string {
    seq(|s|, i requires 0 <= i < |s| => LowerChar(s[i]))
  }

  /** Lowering keeps the length, turns each ASCII capital into its own small
      letter, leaves no capital behind, and keeps every other character. */
  lemma LowerFolds(s: string)
    ensures |Lower(s)| == |s|
    ensures forall i, k :: 0 <= i < |s| && 0 <= k < 26 && s[i] == "ABCDEFGHIJKLMNOPQRSTUVWXYZ"[k] ==>
              Lower(s)[i] == "abcdefghijklmnopqrstuvwxyz"[k]
    ensures forall i :: 0 <= i < |s| ==> !('A' <= Lower(s)[i] <= 'Z')
    ensures forall i :: 0 <= i < |s| && !('A' <= s[i] <= 'Z') ==> Lower(s)[i] == s[i]
  {
  }

  /** Lowering twice is lowering once. */
  lemma LowerIdempotent(s: string)
    ensures Lower(Lower(s)) == Lower(s)
  {
    LowerFolds(s);
    LowerFolds(Lower(s));
  }

  /** Lowering works character by character, so it distributes over concatenation. */
  lemma LowerAppend(x: string, y: string)
    ensures Lower(x + y) == Lower(x) + Lower(y)
  {
    assert forall i :: 0 <= i < |x + y| ==> Lower(x + y)[i] == (Lower(x) + Lower(y))[i] by {
      forall i | 0 <= i < |x + y|
        ensures Lower(x + y)[i] == (Lower(x) + Lower(y))[i]
      {
        if i < |x| {
          assert (x + y)[i] == x[i];
        } else {
          assert (x + y)[i] == y[i - |x|];
        }
      }
    }
  }

  /** `s.endswith(suffix)`; every string ends with the empty suffix. */
  predicate EndsWith(s: string, suffix: string) {
    |suffix| <= |s| && s[|s| - |suffix|..] == suffix
  }

  /** `s.endswith(suffixes)` for a tuple of suffixes; false for the empty tuple. */
  predicate EndsWithAny(s: string, suffixes: seq<string>) {
    exists i :: 0 <= i < |suffixes| && EndsWith(s, suffixes[i])
  }

  /** A suffix no longer than `y` is a suffix of `x + y` exactly when it is one of `y`. */
  lemma EndsWithAnyOfTail(x: string, y: string, suffixes: seq<string>)
    requires forall i :: 0 <= i < |suffixes| ==> |suffixes[i]| <= |y|
    ensures EndsWithAny(x + y, suffixes) <==> EndsWithAny(y, suffixes)
  {
    forall i | 0 <= i < |suffixes|
      ensures EndsWith(x + y, suffixes[i]) <==> EndsWith(y, suffixes[i])
    {
      assert (x + y)[|x + y| - |suffixes[i]|..] == y[|y| - |suffixes[i]|..];
    }
  }

  // ---------------------------------------------------------------------------
  // posixpath.join and posixpath.split
  // ---------------------------------------------------------------------------

  /** `os.path.join(a, b)`: an absolute `b` replaces `a`; otherwise one '/' separates them. */
  function Join(a: string, b: string): string {
    if |b| > 0 && b[0] == '/' then b
    else if |a| == 0 || a[|a| - 1] == '/' then a + b
    else a + "/" + b
  }

  /** A joined path always ends with `b`, and starts with `a` unless `b` is absolute. */
  lemma JoinEnds(a: string, b: string)
    ensures EndsWith(Join(a, b), b)
    ensures !(|b| > 0 && b[0] == '/') ==> |a| <= |Join(a, b)| && Join(a, b)[..|a|] == a
  {
    if !(|b| > 0 && b[0] == '/') && !(|a| == 0 || a[|a| - 1] == '/') {
      assert a + "/" + b == a + ("/" + b);
    }
  }

  /** `p.rfind('/') + 1`: the index just past the last separator, 0 when there is none. */
  function AfterLastSep(p: string): (i: nat)
    ensures i <= |p|
    ensures i > 0 ==> p[i - 1] == '/'
    ensures forall j :: i <= j < |p| ==> p[j] != '/'
  {
    if |p| == 0 then 0
    else if p[|p| - 1] == '/' then |p|
    else AfterLastSep(p[..|p| - 1])
  }

  /** The three facts above pin the split point down. */
  lemma AfterLastSepUnique(p: string, i: nat)
    requires i <= |p|
    requires i > 0 ==> p[i - 1] == '/'
    requires forall j :: i <= j < |p| ==> p[j] != '/'
    ensures AfterLastSep(p) == i
  {
  }

  predicate AllSlashes(s: string) {
    forall i :: 0 <= i < |s| ==> s[i] == '/'
  }

  /** `s.rstrip('/')`: the longest prefix not ending in '/', the rest being separators. */
  function RStripSlashes(s: string): (r: string)
    ensures |r| <= |s| && r == s[..|r|]
    ensures AllSlashes(s[|r|..])
    ensures |r| == 0 || r[|r| - 1] != '/'
  {
    if |s| > 0 && s[|s| - 1] == '/' then
      var r := RStripSlashes(s[..|s| - 1]);
      assert s[|r|..] == s[..|s| - 1][|r|..] + "/";
      r
    else s
  }

  /** The tail `os.path.split(p)[1]`: the longest suffix of `p` without a '/'. */
  function SplitTail(p: string): (t: string)
    ensures EndsWith(p, t)
    ensures forall k :: 0 <= k < |t| ==> t[k] != '/'
    ensures |t| < |p| ==> p[|p| - |t| - 1] == '/'
  {
    p[AfterLastSep(p)..]
  }

  /** The head `os.path.split(p)[0]`: everything before the last '/', with trailing
      separators stripped unless the head consists of separators only. */
  function SplitHead(p: string): string {
    var head := p[..AfterLastSep(p)];
    if |head| > 0 && !AllSlashes(head) then RStripSlashes(head) else head
  }

  /** `p` is the head, a run of separators and the tail; the head keeps no
      trailing separator unless it consists of separators only, in which case the
      run between head and tail is empty. */
  lemma SplitPieces(p: string)
    ensures |SplitHead(p)| + |SplitTail(p)| <= |p| && SplitHead(p) == p[..|SplitHead(p)|]
    ensures AllSlashes(p[|SplitHead(p)|..|p| - |SplitTail(p)|])
    ensures AllSlashes(SplitHead(p)) || SplitHead(p)[|SplitHead(p)| - 1] != '/'
    ensures AllSlashes(SplitHead(p)) ==> |SplitHead(p)| + |SplitTail(p)| == |p|
  {
    var head := p[..AfterLastSep(p)];
    if |head| > 0 && !AllSlashes(head) {
      var h := RStripSlashes(head);
      assert p[|h|..|p| - |SplitTail(p)|] == head[|h|..];
    }
  }

  /** Joining a class directory and a file name and splitting the result gives
      back the class and the file name. */
  lemma SplitClassPath(c: string, f: string)
    requires |c| > 0 && c[|c| - 1] != '/'
    requires forall k :: 0 <= k < |f| ==> f[k] != '/'
    ensures Join(c, f) == c + "/" + f
    ensures SplitHead(Join(c, f)) == c
    ensures SplitTail(Join(c, f)) == f
  {
    var p := c + "/" + f;
    assert p[|c|] == '/';
    AfterLastSepUnique(p, |c| + 1);
    var head := p[..|c| + 1];
    assert head == c + "/";
    assert head[|c| - 1] == c[|c| - 1];
    assert !AllSlashes(head);
    assert head[..|head| - 1] == c;
    assert RStripSlashes(head) == RStripSlashes(c) == c;
  }

  /** Putting a directory ending in '/' in front of a path keeps its last component. */
  lemma SplitTailAfterDirectory(pre: string, b: string)
    requires |pre| == 0 || pre[|pre| - 1] == '/'
    ensures SplitTail(pre + b) == SplitTail(b)
  {
    var p := pre + b;
    var kb := AfterLastSep(b);
    var i := if kb > 0 then |pre| + kb else |pre|;
    if kb > 0 {
      assert p[i - 1] == b[kb - 1];
    } else if |pre| > 0 {
      assert p[i - 1] == pre[|pre| - 1];
    }
    forall j | i <= j < |p|
      ensures p[j] != '/'
    {
      assert p[j] == b[j - |pre|];
    }
    AfterLastSepUnique(p, i);
    assert p[i..] == b[kb..];
  }

  /** Joining never changes the last component of the second path. */
  lemma JoinSplitTail(a: string, b: string)
    ensures SplitTail(Join(a, b)) == SplitTail(b)
  {
    if |b| > 0 && b[0] == '/' {
    } else if |a| == 0 || a[|a| - 1] == '/' {
      SplitTailAfterDirectory(a, b);
    } else {
      assert a + "/" + b == (a + "/") + b;
      SplitTailAfterDirectory(a + "/", b);
    }
  }

  // ---------------------------------------------------------------------------
  // str.join and str.split on a comma
  // ---------------------------------------------------------------------------

  /** `",".join(parts)`. */
  function CommaJoin(parts: seq<string>): string {
    if |parts| == 0 then ""
    else if |parts| == 1 then parts[0]
    else parts[0] + "," + CommaJoin(parts[1..])
  }

  /** Index of the first `c` in `s`, or `|s|` when there is none. */
  function FirstIndexOf(s: string, c: char): (j: nat)
    ensures j <= |s|
    ensures j < |s| ==> s[j] == c
    ensures forall k :: 0 <= k < j ==> s[k] != c
  {
    if |s| == 0 then 0
    else if s[0] == c then 0
    else 1 + FirstIndexOf(s[1..], c)
  }

  /** `s.split(c)` for a one-character separator: the pieces between the
      separators, one more than there are separators ("" gives [""]). */
  function SplitOn(s: string, c: char): (parts: seq<string>)
    ensures |parts| > 0
    ensures forall i :: 0 <= i < |parts| ==> c !in parts[i]
    decreases |s|
  {
    var j := FirstIndexOf(s, c);
    if j == |s| then
      assert s[..j] == s;
      [s]
    else [s[..j]] + SplitOn(s[j + 1..], c)
  }

  /** Splitting a comma-joined list of comma-free parts gives the parts back. */
  lemma {:induction false} SplitCommaJoin(parts: seq<string>)
    requires |parts| > 0
    requires forall i :: 0 <= i < |parts| ==> ',' !in parts[i]
    ensures SplitOn(CommaJoin(parts), ',') == parts
  {
    var s := CommaJoin(parts);
    var p := parts[0];
    if |parts| == 1 {
      assert FirstIndexOf(s, ',') == |p|;
      assert s[..|p|] == s;
    } else {
      var rest := CommaJoin(parts[1..]);
      assert s == p + "," + rest;
      assert s[|p|] == ',';
      assert FirstIndexOf(s, ',') == |p|;
      assert s[..|p|] == p;
      assert s[|p| + 1..] == rest;
      SplitCommaJoin(parts[1..]);
      assert parts == [p] + parts[1..];
    }
  }

  // ---------------------------------------------------------------------------
  // The ordering of Python strings
  // ---------------------------------------------------------------------------

  /** `a <= b` on Python strings: lexicographic by code point, a proper prefix first. */
  predicate LexLe(a: string, b: string)
    decreases |a|
  {
    |a| == 0 || (|b| > 0 && (a[0] < b[0] || (a[0] == b[0] && LexLe(a[1..], b[1..]))))
  }

  lemma {:induction false} LexLeTotal(a: string, b: string)
    ensures LexLe(a, b) || LexLe(b, a)
    decreases |a|
  {
    if |a| > 0 && |b| > 0 && a[0] == b[0] {
      LexLeTotal(a[1..], b[1..]);
    }
  }

  lemma {:induction false} LexLeAntisymmetric(a: string, b: string)
    requires LexLe(a, b) && LexLe(b, a)
    ensures a == b
    decreases |a|
  {
    if |a| > 0 {
      LexLeAntisymmetric(a[1..], b[1..]);
      assert a == [a[0]] + a[1..];
      assert b == [b[0]] + b[1..];
    }
  }

  lemma {:induction false} LexLeTransitive(a: string, b: string, c: string)
    requires LexLe(a, b) && LexLe(b, c)
    ensures LexLe(a, c)
    decreases |a|
  {
    if |a| > 0 && a[0] == b[0] && b[0] == c[0] {
      LexLeTransitive(a[1..], b[1..], c[1..]);
    }
  }

  // ---------------------------------------------------------------------------
  // str.splitlines
  // ---------------------------------------------------------------------------

  /** The line boundaries `str.splitlines` recognises. */
  predicate IsLineBreak(c: char) {
    c == '\n' || c == '\r' || c == '\U{0B}' || c == '\U{0C}'
    || c == '\U{1C}' || c == '\U{1D}' || c == '\U{1E}'
    || c == '\U{85}' || c == '\U{2028}' || c == '\U{2029}'
  }

  predicate NoLineBreak(s: string) {
    forall k :: 0 <= k < |s| ==> !IsLineBreak(s[k])
  }

  /** Index of the first line boundary in `s`, or `|s|` when there is none. */
  function FirstBreak(s: string): (j: nat)
    ensures j <= |s|
    ensures j < |s| ==> IsLineBreak(s[j])
    ensures NoLineBreak(s[..j])
  {
    if |s| == 0 then 0
    else if IsLineBreak(s[0]) then 0
    else
      var j := 1 + FirstBreak(s[1..]);
      assert s[..j] == [s[0]] + s[1..][..j - 1];
      j
  }

  /** `s.splitlines()`: cut at every boundary ("\r\n" counts as one); a final
      boundary does not start an extra empty line. */
  function SplitLines(s: string): (lines: seq<string>)
    ensures forall i :: 0 <= i < |lines| ==> NoLineBreak(lines[i])
    ensures |lines| == 0 <==> |s| == 0
    decreases |s|
  {
    if |s| == 0 then []
    else
      var j := FirstBreak(s);
      if j == |s| then
        assert s[..j] == s;
        [s]
      else
        var next := if s[j] == '\r' && j + 1 < |s| && s[j + 1] == '\n' then j + 2 else j + 1;
        [s[..j]] + SplitLines(s[next..])
  }

  /** A line ending that `splitlines` consumes as one boundary: a single
      boundary character, or "\r\n". */
  predicate LineEnding(eol: string) {
    (|eol| == 1 && IsLineBreak(eol[0])) || eol == "\r\n"
  }

  /** A text file as written: every line followed by the line ending `eol`. */
  function TerminatedBy(lines: seq<string>, eol: string): string {
    if |lines| == 0 then "" else lines[0] + eol + TerminatedBy(lines[1..], eol)
  }

  /** The text after a written line starts with an ordinary character or with the
      line ending again; so a lone '\r' is never followed by '\n'. */
  lemma {:induction false} WrittenTextStart(lines: seq<string>, eol: string, last: string)
    requires LineEnding(eol)
    requires forall i :: 0 <= i < |lines| ==> NoLineBreak(lines[i])
    requires NoLineBreak(last)
    ensures |TerminatedBy(lines, eol) + last| > 0 ==>
              var c := (TerminatedBy(lines, eol) + last)[0];
              !IsLineBreak(c) || c == eol[0]
  {
    if |lines| > 0 {
      var t := TerminatedBy(lines, eol) + last;
      assert t == lines[0] + (eol + TerminatedBy(lines[1..], eol) + last);
      if |lines[0]| > 0 {
        assert t[0] == lines[0][0];
      } else {
        assert t[0] == eol[0];
      }
    }
  }

  /** The first boundary is the one at `j` when none comes before it. */
  lemma {:induction false} FirstBreakAt(s: string, j: nat)
    requires j <= |s| && NoLineBreak(s[..j])
    requires j < |s| ==> IsLineBreak(s[j])
    ensures FirstBreak(s) == j
  {
    if j > 0 {
      assert s[..j][0] == s[0];
      assert s[1..][..j - 1] == s[..j][1..];
      FirstBreakAt(s[1..], j - 1);
    }
  }

  /** A line, its line ending and the rest of the text: `splitlines` yields the
      line and then the lines of the rest. */
  lemma SplitLinesStep(l: string, eol: string, rest: string)
    requires NoLineBreak(l) && LineEnding(eol)
    requires eol == "\r" && |rest| > 0 ==> rest[0] != '\n'
    ensures SplitLines(l + eol + rest) == [l] + SplitLines(rest)
  {
    var s := l + eol + rest;
    assert s[..|l|] == l;
    FirstBreakAt(s, |l|);
    if eol == "\r" && |rest| > 0 {
      assert s[|l| + 1] == rest[0];
    }
    assert s[|l| + |eol|..] == rest;
  }

  /** Text without a boundary is one line, or no line when it is empty. */
  lemma SplitLinesUnbroken(last: string)
    requires NoLineBreak(last)
    ensures SplitLines(last) == if |last| == 0 then [] else [last]
  {
    if |last| > 0 {
      assert last[..|last|] == last;
      FirstBreakAt(last, |last|);
    }
  }

  /** Reading back a written file yields exactly its lines, whatever line ending
      was used, plus the final line when the file does not end in a line ending. */
  lemma {:induction false} SplitLinesWritten(lines: seq<string>, eol: string, last: string)
    requires LineEnding(eol)
    requires forall i :: 0 <= i < |lines| ==> NoLineBreak(lines[i])
    requires NoLineBreak(last)
    ensures SplitLines(TerminatedBy(lines, eol) + last) == lines + (if |last| == 0 then [] else [last])
  {
    if |lines| == 0 {
      assert TerminatedBy(lines, eol) + last == last;
      SplitLinesUnbroken(last);
    } else {
      var rest := TerminatedBy(lines[1..], eol) + last;
      var tail: seq<string> := if |last| == 0 then [] else [last];
      WrittenTextStart(lines[1..], eol, last);
      calc {
        SplitLines(TerminatedBy(lines, eol) + last);
        { assert TerminatedBy(lines, eol) + last == lines[0] + eol + rest; }
        SplitLines(lines[0] + eol + rest);
        { SplitLinesStep(lines[0], eol, rest); }
        [lines[0]] + SplitLines(rest);
        { SplitLinesWritten(lines[1..], eol, last); }
        [lines[0]] + (lines[1..] + tail);
        { assert lines == [lines[0]] + lines[1..]; }
        lines + tail;
      }
    }
  }
}

=== FILE: results.dfy ===
/**
 The exceptions the script can raise along the modelled paths, and the
 Result type that carries them.
 */
module Results {

  /** One constructor per Python exception class the modelled code raises. */
  datatype Error =
    | ValueError(msg: string)
    | KeyError(key: string)
    | FileNotFoundError(path: string)
    | RuntimeError(msg: string)
    | NameError(name: string)
    | IndexError
    | UnboundLocalError(name: string)

  /** The outcome of an operation: its value, or the exception it raised. */
  datatype Result<+T> = Success(value: T) | Failure(error: Error)

  /** Python's `Optional`: an argument that may be `None`. */
  datatype Option<+T> = None | Some(value: T)
}

=== FILE: training.dfy ===
/**
 The two pieces of bookkeeping in the training section of code/main.py:
 choosing which parameters the optimiser updates from the FREEZE setting,
 and remembering the epoch with the best validation accuracy.
 */
module Training {
  import opened Results

  // ---------------------------------------------------------------------------
  // FREEZE
  // ---------------------------------------------------------------------------

  /** Which parameters are handed to the optimiser. */
  datatype ParameterGroup =
    | AllParameters         // 'no_freezing': net.parameters()
    | ClassifierParameters  // 'conv_layers': net.classifier.parameters()
    | FeatureParameters     // 'fc_layers': net.features.parameters()

  /** The setting that selects each group. */
  function FreezeName(g: ParameterGroup): string {
    match g
    case AllParameters => "no_freezing"
    case ClassifierParameters => "conv_layers"
    case FeatureParameters => "fc_layers"
  }

  function FreezeMessage(freeze: string): string {
    "Error Freezing layers (FREEZE = " + freeze + ") \n Possible values are: "
    + "'no_freezing', 'conv_layers', 'fc_layers' "
  }

  /** The if/elif chain on FREEZE: one of three exact strings, anything else a ValueError. */
  function ParseFreeze(freeze: string): (r: Result<ParameterGroup>)
    ensures r.Success? <==> freeze in {"no_freezing", "conv_layers", "fc_layers"}
    ensures r.Failure? ==> r.error == ValueError(FreezeMessage(freeze))
    ensures r.Success? ==> FreezeName(r.value) == freeze
  {
    if freeze == "no_freezing" then Success(AllParameters)
    else if freeze == "conv_layers" then Success(ClassifierParameters)
    else if freeze == "fc_layers" then Success(FeatureParameters)
    else Failure(ValueError(FreezeMessage(freeze)))
  }

  /** Every group is selected by its own name, so no group is unreachable. */
  lemma ParseFreezeName(g: ParameterGroup)
    ensures ParseFreeze(FreezeName(g)) == Success(g)
  {
  }

  /** Different settings never select the same group. */
  lemma ParseFreezeInjective(a: string, b: string)
    requires ParseFreeze(a).Success? && ParseFreeze(b).Success?
    requires ParseFreeze(a) == ParseFreeze(b)
    ensures a == b
  {
  }

  // ---------------------------------------------------------------------------
  // Best epoch
  // ---------------------------------------------------------------------------

  /** What one epoch leaves behind: the network after the epoch and its
      validation accuracy. */
  datatype Epoch<N> = Epoch(net: N, valAcc: real)

  /** `best_val_acc`, `best_epoch` and `best_net`; `best_net` starts as the
      placeholder 0, modelled as `None`. */
  datatype Best<N> = Best(acc: real, epoch: nat, net: Option<N>)

  const INITIAL_ACC: real := 0.0

  /** The update after each epoch: an accuracy at least as high as the best so
      far (`>=`, so a tie moves the best to the later epoch) replaces it. */
  function Update<N>(b: Best<N>, epoch: nat, e: Epoch<N>): (r: Best<N>)
    ensures r.acc >= b.acc && r.acc >= e.valAcc && (r.acc == b.acc || r.acc == e.valAcc)
    ensures e.valAcc == r.acc ==> r.epoch == epoch && r.net == Some(e.net)
    ensures r.acc > e.valAcc ==> r == b
  {
    if e.valAcc >= b.acc then Best(e.valAcc, epoch, Some(e.net)) else b
  }

  /** The best record after the epochs `es`, starting from 0.0 / epoch 0 / no net. */
  function TrackBest<N>(es: seq<Epoch<N>>): (b: Best<N>)
    ensures b.acc >= INITIAL_ACC
    ensures forall k :: 0 <= k < |es| ==> es[k].valAcc <= b.acc
    ensures b.acc == INITIAL_ACC || exists k :: 0 <= k < |es| && es[k].valAcc == b.acc
    ensures b.net.Some? ==> && b.epoch < |es|
                            && es[b.epoch].valAcc == b.acc
                            && b.net.value == es[b.epoch].net
                            && forall k :: b.epoch < k < |es| ==> es[k].valAcc < b.acc
    ensures b.net.None? <==> forall k :: 0 <= k < |es| ==> es[k].valAcc < INITIAL_ACC
    ensures b.net.None? ==> b == Best(INITIAL_ACC, 0, None)
  {
    if |es| == 0 then Best(INITIAL_ACC, 0, None)
    else Update(TrackBest(es[..|es| - 1]), |es| - 1, es[|es| - 1])
  }

  /** The maximum of 0.0 and the accuracies, as an independent definition. */
  function MaxAcc<N>(es: seq<Epoch<N>>): real {
    if |es| == 0 then INITIAL_ACC
    else
      var m := MaxAcc(es[..|es| - 1]);
      if es[|es| - 1].valAcc > m then es[|es| - 1].valAcc else m
  }

  /** `best_val_acc` is exactly max(0.0, all validation accuracies). */
  lemma {:induction false} TrackBestIsMax<N>(es: seq<Epoch<N>>)
    ensures TrackBest(es).acc == MaxAcc(es)
  {
    if |es| > 0 {
      TrackBestIsMax(es[..|es| - 1]);
    }
  }

  /** Running more epochs never lowers the best accuracy. */
  lemma {:induction false} TrackBestMonotone<N>(es: seq<Epoch<N>>, n: nat)
    requires n <= |es|
    ensures TrackBest(es[..n]).acc <= TrackBest(es).acc
    decreases |es| - n
  {
    if n < |es| {
      TrackBestMonotone(es, n + 1);
      assert es[..n + 1][..n] == es[..n];
    } else {
      assert es[..n] == es;
    }
  }

  /** `best_epoch` is the LAST epoch reaching the best accuracy, once any epoch
      has reached 0.0. */
  lemma BestEpochIsLastMaximum<N>(es: seq<Epoch<N>>, k: nat)
    requires k < |es| && es[k].valAcc == MaxAcc(es)
    ensures TrackBest(es).net.Some?
    ensures k <= TrackBest(es).epoch
    ensures TrackBest(es).net == Some(es[TrackBest(es).epoch].net)
  {
    TrackBestIsMax(es);
  }

  /** Three epochs whose last two tie: the tie goes to the later one. */
  lemma TieGoesToLaterEpoch()
    ensures TrackBest([Epoch("a", 0.5), Epoch("b", 0.75), Epoch("c", 0.75)]) == Best(0.75, 2, Some("c"))
  {
    var es := [Epoch("a", 0.5), Epoch("b", 0.75), Epoch("c", 0.75)];
    assert es[..2][..1] == [Epoch("a", 0.5)];
    assert es[..2] == [Epoch("a", 0.5), Epoch("b", 0.75)];
  }
}
